=== FILE: README.md ===
# ItanniX voice client, modelled in Dafny

This project models `VoiceClient`, the browser client of the ItanniX
Realtime API, in `svelte/src/lib/VoiceClient.ts`. The client negotiates a
WebRTC session with the ItanniX server. It then exchanges JSON events with
the server over an ordered data channel named `messages`, alongside the
audio. The model covers:

- the constructor and its default server address;
- `connect`, as nine stages run in order, stopping at the first that fails
  (every stage but the ICE-gathering wait can fail; the peer connection and
  the data channel are created synchronously, the rest are awaited):
  - the session `POST`;
  - the peer connection and the data channel;
  - the microphone;
  - the offer and the local description;
  - the wait for ICE gathering;
  - the SDP `POST`;
  - setting the remote description;
- the handlers the browser calls later: the channel's `onopen`, `onclose`
  and `onmessage`, and the peer connection's `ontrack`;
- `handleMessage`, which routes each inbound event to the transcript,
  assistant-message or function-call path;
- `handleLocalFunction`, which answers the three device-volume functions
  locally, including JavaScript's `parseInt(String(v))` and truthiness;
- `sendFunctionResult`;
- `parseError`, which turns a failed HTTP response into the thrown error;
- `updateStatus` and `disconnect`.

The client is an immutable `Client` record whose nullable handles are
`Option`s. Every operation is a pure function. It returns the next client
together with an ordered log of effects:

- status callbacks;
- other callbacks;
- data-channel sends;
- HTTP requests;
- releases of resources.

The `ClientRun` module folds any sequence of API calls and browser events over
this log. The properties about whole runs of the client are stated over that fold.

Modules, in dependency order:

| module | file | what it holds |
|---|---|---|
| `Wrappers` | `wrappers.dfy` | `Option` |
| `Numerals` | `numerals.dfy` | digit strings and decimal rendering |
| `JsValues` | `jsvalues.dfy` | JSON values, truthiness, `String(v)` and `parseInt` |
| `Protocol` | `protocol.dfy` | wire messages, HTTP requests and replies, the effect log |
| `ErrorTranslator` | `errors.dfy` | `parseError` |
| `ClientState` | `client.dfy` | the client record, the constructor, `updateStatus`, the validity invariant |
| `LocalFunctions` | `localfunctions.dfy` | the local volume router |
| `Dispatch` | `dispatch.dfy` | `handleMessage`, `sendFunctionResult`, frame delivery |
| `Lifecycle` | `lifecycle.dfy` | `connect`'s stages, the handlers, `disconnect` |
| `LifecycleProperties` | `lifecycle.dfy` | what `connect` and `disconnect` promise |
| `ClientRun` | `clientrun.dfy` | the client as one event-driven state machine |

The browser and the server are not part of the model. They appear only
through an `Environment`, which gives:

- the two HTTP replies;
- which browser calls throw;
- the SDP text the browser produces.

Behaviours of the code that the model makes explicit:

- **A failed `connect` does not report `disconnected`.** It announces
  `connecting` (VoiceClient.ts:74) and then only throws; no failure path
  calls `updateStatus` again. `ConnectAnnouncesConnecting` and
  `FailedHandshakeStaysConnecting` state this.
- **A failed `connect` leaves its handles in place.** Nothing in `connect`
  releases what it already created; only `disconnect` does.
  `SdpRefusalTranslated` shows the handles that remain.
- **`disconnect` keeps the session.** It releases the channel, the peer
  connection, the microphone and the playback element (VoiceClient.ts:322-340),
  but not the stored session response.
- **Malformed function-call `arguments` abort the frame.** Only *absent*
  arguments read as `{}` (VoiceClient.ts:224); `JSON.parse` throws on
  malformed text, so the frame is dropped.
- **`set_device_volume` accepts any `volume_level`.** Any value other than
  `undefined` is read with `parseInt(String(v))` (VoiceClient.ts:241). A level
  that reads as NaN makes the assignment to the element's `volume` throw.
- **`adjust_device_volume` accepts any truthy `action`.** An action other
  than `increase` or `decrease` keeps the volume where it is and still
  answers.
- **`disconnect` leaves the channel's `onclose` handler bound.** It closes the
  data channel and then, straight away, the peer connection. Whether the
  browser still delivers the channel's close event after that is up to the
  browser; if it does, a status listener hears `disconnected` a second time
  (`DisconnectThenCloseReportsTwice`).

## Model

| member | source | states |
|---|---|---|
| ClientState.NewClient | svelte/src/lib/VoiceClient.ts:66-71 | a new client has the given credentials, the given server address or `https://api.itannix.com` when none is given, no callbacks and no handles |
| ClientRun.NewClientValid | svelte/src/lib/VoiceClient.ts:66-71 | a new client satisfies the validity invariant |
| ClientState.UpdateStatus | svelte/src/lib/VoiceClient.ts:316-320 | the status callback fires exactly once with the new status when one is registered, and nothing happens otherwise |
| Numerals.DigitPrefix | svelte/src/lib/VoiceClient.ts:241 | the digits `parseInt` reads are the longest prefix made only of digits of the radix |
| Numerals.NatToString | svelte/src/lib/VoiceClient.ts:292 | the decimal rendering of a status code is non-empty, all digits, and has no leading zero |
| Numerals.IntToString | svelte/src/lib/VoiceClient.ts:241 | `String(n)` of an integer starts with `-` exactly when the integer is negative |
| Numerals.NatToStringValue | svelte/src/lib/VoiceClient.ts:241 | reading a rendered natural number back gives the number |
| Numerals.DigitPrefixSplit | svelte/src/lib/VoiceClient.ts:241 | `parseInt` stops reading exactly where the digits stop |
| JsValues.TrimStart | svelte/src/lib/VoiceClient.ts:241 | `parseInt` skips exactly the leading JavaScript white space and line terminators |
| JsValues.ParseIntOfDecimal | svelte/src/lib/VoiceClient.ts:241 | `parseInt(String(n))` is `n` for every integer, so an integer `volume_level` reaches the clamp unchanged |
| JsValues.TrimLeading | svelte/src/lib/VoiceClient.ts:241 | leading blanks are exactly what trimming removes |
| JsValues.ParseIntOfDigits | svelte/src/lib/VoiceClient.ts:241 | decimal digits followed by a non-digit parse to the digits' value, whatever follows, unless the text starts with `0x` or `0X` |
| JsValues.ParseIntSkipsBlanks | svelte/src/lib/VoiceClient.ts:241 | leading blanks do not change what `parseInt` reads |
| JsValues.ParseIntReadsLeadingNumber | svelte/src/lib/VoiceClient.ts:241 | blanks, then decimal digits, then anything not starting with a digit parse to the digits' value, unless the digits and what follows start with `0x` or `0X` |
| JsValues.ParseIntOfPaddedPercent | svelte/src/lib/VoiceClient.ts:241 | `parseInt(" 42%")` is 42 |
| JsValues.ParseIntNaN | svelte/src/lib/VoiceClient.ts:241 | text starting with neither blank, sign nor digit is NaN |
| JsValues.ParseIntNoDigits | svelte/src/lib/VoiceClient.ts:241 | text that, after its blanks and one optional sign, is empty or does not start with a decimal digit is NaN |
| ErrorTranslator.ParseError | svelte/src/lib/VoiceClient.ts:291-314 | the error keeps the response status; a truthy JSON `message` wins; a body that is not JSON gives "fallback: statusText" when there is a status text; otherwise "fallback (status)"; the hint is present exactly when the body has a truthy `hint` |
| ErrorTranslator.MessageKeepsFallback | svelte/src/lib/VoiceClient.ts:291-308 | unless the body supplies its own message, the error message starts with the caller's fallback text |
| ErrorTranslator.DefaultMessageCarriesStatus | svelte/src/lib/VoiceClient.ts:292 | the digits between the parentheses of the default message parse back to the status code |
| ErrorTranslator.RejectedKeyExample | svelte/src/lib/VoiceClient.ts:291-314 | a 401 with JSON message "bad key" and a hint becomes that message, status 401 and that hint |
| LocalFunctions.ClampPercent | svelte/src/lib/VoiceClient.ts:241 | the clamp lies in [0, 100], is the identity inside it, and maps values below or above to 0 or 100 |
| LocalFunctions.VolumeResult | svelte/src/lib/VoiceClient.ts:243 | the result object has exactly the fields `success: true` and `volume` |
| LocalFunctions.HandleLocalFunction | svelte/src/lib/VoiceClient.ts:237-269 | without a playback element or for any other name nothing is handled; a handled call answers with the new volume; only `set_device_volume` can throw; a volume in range stays in range |
| LocalFunctions.SetVolumeClamps | svelte/src/lib/VoiceClient.ts:239-244 | an integer `volume_level` is clamped to [0, 100], becomes the volume and is returned |
| LocalFunctions.SetVolumeFromText | svelte/src/lib/VoiceClient.ts:241-243 | a text level " 42%" sets and returns volume 42 |
| LocalFunctions.SetVolumeNaNThrows | svelte/src/lib/VoiceClient.ts:241-242 | `null`, a boolean, an object, and any text that after its blanks and one optional sign does not start with a decimal digit make the handler throw |
| LocalFunctions.QuietSilences | svelte/src/lib/VoiceClient.ts:260-264 | `quiet_device` sets and reports volume 0 whatever the arguments |
| LocalFunctions.AdjustMovesOneStep | svelte/src/lib/VoiceClient.ts:247-257 | `increase` and `decrease` move the volume one clamped step; any other truthy action keeps it; the reported volume is the new one |
| LocalFunctions.MissingArgumentNotHandled | svelte/src/lib/VoiceClient.ts:239-258 | without `volume_level`, or without a truthy `action`, the call is not handled |
| Dispatch.SendFunctionResult | svelte/src/lib/VoiceClient.ts:271-289 | on an open channel, exactly the result tagged with its call id and then `response.create`; on any other channel state nothing |
| Dispatch.HandleMessage | svelte/src/lib/VoiceClient.ts:196-235 | a message changes at most the playback element, and only a function call can change it; it causes at most two effects and no status change; what it sends comes in result/response pairs; only a function call can throw |
| Dispatch.Receive | svelte/src/lib/VoiceClient.ts:126-129 | a frame that is not JSON throws before any dispatch |
| Dispatch.Deliver | svelte/src/lib/VoiceClient.ts:126-129 | a delivered frame changes at most the playback element |
| Dispatch.UserTranscriptFiresOnce | svelte/src/lib/VoiceClient.ts:198-203 | a completed user transcript fires the transcript callback once with its text when the callback is set and the text is non-empty, and nothing otherwise |
| Dispatch.AssistantDeltaFiresOnce | svelte/src/lib/VoiceClient.ts:206-211 | a transcript delta fires the assistant callback once with the delta and `done = false`, under the same conditions |
| Dispatch.AssistantDoneFiresOnce | svelte/src/lib/VoiceClient.ts:214-219 | a finished transcript fires the assistant callback once with the full text and `done = true` |
| Dispatch.UnrecognisedIgnored | svelte/src/lib/VoiceClient.ts:196-235 | any other message type, and an output item that is not a function call, has no effect |
| Dispatch.DeltasThenDone | svelte/src/lib/VoiceClient.ts:206-219 | N non-empty deltas then a finished transcript fire the assistant callback N times with `done = false` and then once with `done = true`, in arrival order |
| Dispatch.LocalCallAnsweredLocally | svelte/src/lib/VoiceClient.ts:227-229 | a call the router handles is answered on the channel with its own call id and never reaches the application |
| Dispatch.OtherCallsForwarded | svelte/src/lib/VoiceClient.ts:230-233 | a call the router declines reaches the application's callback with its name, parsed arguments and call id, and nothing is sent |
| Dispatch.UnknownNamesReachApplication | svelte/src/lib/VoiceClient.ts:237-268 | a name outside the three device functions always reaches the application |
| Dispatch.ArgumentsDefaultToEmpty | svelte/src/lib/VoiceClient.ts:223-224 | absent arguments behave as `{}`; arguments that are not JSON abort the frame |
| Dispatch.DeliverAllKeepsProtocol | svelte/src/lib/VoiceClient.ts:196-289 | over any sequence of frames, channel traffic is complete result/response pairs, no status is reported, and only the playback element can change |
| Dispatch.DeliverKeepsValid | svelte/src/lib/VoiceClient.ts:237-265 | handling a frame keeps the playback volume a percentage |
| Dispatch.DeliverAllKeepsValid | svelte/src/lib/VoiceClient.ts:126-129 | any sequence of frames keeps the client valid |
| Lifecycle.RunStage | svelte/src/lib/VoiceClient.ts:76-193 | a stage stops exactly when its outcome fails, and the error names it |
| Lifecycle.StageKeeps | svelte/src/lib/VoiceClient.ts:76-193 | a stage's only effects are HTTP requests; a successful stage keeps credentials, address, callbacks and playback; every stage after the session keeps the session and a peer connection, and every stage after the peer connection keeps its ICE servers |
| Lifecycle.ConnectInOrder | svelte/src/lib/VoiceClient.ts:73-194 | running the stages one after another and leaving at the first failure gives exactly the reference outcome of `connect` |
| Lifecycle.ChannelOpened | svelte/src/lib/VoiceClient.ts:108-120 | a connecting channel that opens is open; for no channel, or one that is already open, closing or closed, nothing happens; only the channel's ready state changes, and the only effects are `connected` and the `session.update` |
| Lifecycle.ChannelClosed | svelte/src/lib/VoiceClient.ts:122-124 | the close handler reports `disconnected` once when a status callback is set and has no other effect; it leaves no open channel and changes nothing but the channel's ready state |
| Lifecycle.TrackArrived | svelte/src/lib/VoiceClient.ts:146-152 | a remote track gives a new playback element at full volume, with no effect; nothing but the playback element changes, and without a peer connection nothing changes |
| Lifecycle.Releases | svelte/src/lib/VoiceClient.ts:323-338 | `disconnect` releases exactly the resources the client holds, and reports no status while doing so |
| Lifecycle.Disconnect | svelte/src/lib/VoiceClient.ts:322-340 | afterwards no handle is held; session and callbacks are kept; exactly the held resources are released; `disconnected` is reported once when a status callback is set |
| LifecycleProperties.FirstFailure | svelte/src/lib/VoiceClient.ts:73-194 | reference definition: the first stage from a point on whose outcome fails, with every earlier stage succeeding |
| LifecycleProperties.RunStagesErrorAt | svelte/src/lib/VoiceClient.ts:73-194 | from any stage on, an error is reported exactly when a later stage fails, and it names the first such stage |
| LifecycleProperties.RunStagesShape | svelte/src/lib/VoiceClient.ts:73-194 | the number of stages run is the count up to and including the first failing one, or all the remaining ones when none fails |
| LifecycleProperties.RunStagesOnlyPosts | svelte/src/lib/VoiceClient.ts:76-193 | the stages themselves cause no effect but HTTP requests |
| LifecycleProperties.ConnectStopsAtFirstFailure | svelte/src/lib/VoiceClient.ts:73-194 | `connect` ran exactly the stages up to and including the first failing one (all nine when none fails), and reports an error exactly when a stage fails, naming it |
| LifecycleProperties.ConnectAnnouncesConnecting | svelte/src/lib/VoiceClient.ts:74 | `connect` reports `connecting` first and reports no other status, whether it succeeds or fails; every later effect is an HTTP request |
| LifecycleProperties.SessionFailureChangesNothing | svelte/src/lib/VoiceClient.ts:76-93 | a failed session request leaves the client unchanged after exactly one request, and throws the translated response under "Session creation failed" |
| LifecycleProperties.FreshSessionFailureHoldsNothing | svelte/src/lib/VoiceClient.ts:90-93 | from a new client, a failed session leaves no handle behind |
| LifecycleProperties.PreparationReaches | svelte/src/lib/VoiceClient.ts:76-169 | when the first seven stages succeed, `connect` stores the session, creates the peer connection on its ICE servers, opens the `messages` channel, captures the microphone, and holds the gathered offer |
| LifecycleProperties.CaptureFromSession | svelte/src/lib/VoiceClient.ts:96-143 | once the session is stored, the next three stages succeed without any effect and hand over to the client holding a peer connection on the session's ICE servers that sends the microphone, the opening `messages` channel and the captured microphone: running on from there ends exactly as running on from the session |
| LifecycleProperties.PrepareFromCapture | svelte/src/lib/VoiceClient.ts:146-169 | from the captured microphone, the track handler, the offer and ICE gathering succeed without any effect and hand over to the client whose local description is the gathered offer, ready for the SDP exchange |
| LifecycleProperties.PeerUsesSessionIceServers | svelte/src/lib/VoiceClient.ts:96-101 | once the first seven stages succeed, the peer connection uses the session's ICE servers, or `stun:stun.cloudflare.com:3478` when the session names none, whatever the SDP exchange does |
| LifecycleProperties.SdpExchangeSucceeds | svelte/src/lib/VoiceClient.ts:171-193 | an accepted SDP exchange posts the local description once and stores the server's answer as the remote description, with no error |
| LifecycleProperties.ConnectSucceeds | svelte/src/lib/VoiceClient.ts:73-194 | when every stage succeeds the peer connection holds the gathered offer and the server's answer, and exactly the session request and then the gathered offer were sent |
| LifecycleProperties.SdpRefusalTranslated | svelte/src/lib/VoiceClient.ts:171-186 | a refused SDP exchange throws the translated response under "Connection failed", after both requests, with the prepared handles left in place |
| LifecycleProperties.RunStagesKeepsValid | svelte/src/lib/VoiceClient.ts:98-143 | each stage keeps the client valid: the channel and the microphone hang off the peer connection, and the channel is the ordered `messages` channel |
| LifecycleProperties.ConnectKeepsValid | svelte/src/lib/VoiceClient.ts:73-194 | `connect` keeps the client valid wherever it stops |
| LifecycleProperties.DisconnectIdempotent | svelte/src/lib/VoiceClient.ts:322-340 | a second `disconnect` changes nothing, releases nothing and only reports `disconnected` again |
| LifecycleProperties.DisconnectWhenIdle | svelte/src/lib/VoiceClient.ts:322-340 | `disconnect` on a client that never connected only reports `disconnected` |
| LifecycleProperties.DisconnectReportsLast | svelte/src/lib/VoiceClient.ts:339 | the status report comes after every release |
| LifecycleProperties.DisconnectKeepsValid | svelte/src/lib/VoiceClient.ts:322-340 | the client after `disconnect` is valid |
| ClientRun.FramesNeedOpenChannel | svelte/src/lib/VoiceClient.ts:126-129 | a frame is dispatched exactly when the channel is open; on any other client it changes nothing and has no effect |
| ClientRun.ChannelOpenConnects | svelte/src/lib/VoiceClient.ts:108-120 | a connecting channel's opening reports `connected` once when a status callback is set, sends exactly one `session.update` naming the transcription model, and leaves the channel open |
| ClientRun.OnlyChannelOpenConnects | svelte/src/lib/VoiceClient.ts:108-109 | no step but the channel opening ever reports `connected` |
| ClientRun.OnlyTeardownDisconnects | svelte/src/lib/VoiceClient.ts:122-124 | only `disconnect` and the channel closing report `disconnected`; a failed `connect` does not |
| ClientRun.ConnectedNeedsChannelOpen | svelte/src/lib/VoiceClient.ts:108-109 | over a whole run, `connected` is reported only if the channel opened at some point |
| ClientRun.ApplyKeepsValid | svelte/src/lib/VoiceClient.ts:66-340 | every call and every browser event keeps the client valid |
| ClientRun.RunKeepsValid | svelte/src/lib/VoiceClient.ts:66-340 | every client a run reaches from a valid one is valid |
| ClientRun.ConnectedClientHasChannel | svelte/src/lib/VoiceClient.ts:103-106 | after a successful `connect` the channel exists and is still connecting, the callbacks are unchanged, `connecting` was the only status, and nothing was sent on the channel |
| ClientRun.HandshakeStatusParts | svelte/src/lib/VoiceClient.ts:73-120 | a successful `connect` reports only `connecting`, and the opening of its channel reports only `connected` |
| ClientRun.HandshakeStatusEvents | svelte/src/lib/VoiceClient.ts:73-120 | a successful `connect` followed by the channel opening reports exactly `connecting` and then `connected` |
| ClientRun.HandshakeOutbox | svelte/src/lib/VoiceClient.ts:108-120 | that handshake sends exactly one message on the channel, the `session.update` |
| ClientRun.HandshakeOpensChannel | svelte/src/lib/VoiceClient.ts:103-120 | that handshake ends with an open channel |
| ClientRun.HandshakeReportsConnectingThenConnected | svelte/src/lib/VoiceClient.ts:73-120 | the three handshake facts together |
| ClientRun.FailedHandshakeStaysConnecting | svelte/src/lib/VoiceClient.ts:74-93 | a handshake whose session request fails reports `connecting` and nothing after it |
| LifecycleProperties.DisconnectThenCloseReportsTwice | svelte/src/lib/VoiceClient.ts:322-339 | `disconnect` followed by the channel's close event reports `disconnected` twice |

## Left out

- The browser APIs (`fetch`, `RTCPeerConnection`, `getUserMedia`, `Audio`) are left out. Their outcomes are inputs in an `Environment`: the two HTTP replies, the set of calls that throw, and the SDP text.
- SDP contents and ICE candidates are left out; an SDP is an uninterpreted string.
- The ICE-gathering wait is left out as a failure point. It cannot fail, and a wait that never completes (a `connect` that hangs) is not modelled.
- Concurrency is left out. `connect` runs to completion or to its first failure before any other event. Events that interleave with an unfinished `connect` and overlapping `connect` calls are not modelled. A second `connect` replaces the handles without releasing the old ones, as the code does.
- JSON text is left out. Frames arrive already decoded, or as `Garbled` when they are not JSON. A frame that parses to a non-object JSON value is not modelled.
- Dispatch.ArgumentsDefaultToEmpty: `arguments` text that parses to JSON other than an object is not modelled. Arguments are either an object or malformed.
- ErrorTranslator.ParseError: the body's `message` and `hint` are strings or absent. A truthy non-string field cannot be represented, so a body such as `{"message": 42}`, whose message the code would turn into "42", is not modelled.
- JsValues.ParseIntOfDecimal: JSON values are integers, strings, booleans, `null`, or an opaque object. Fractional numbers, arrays, and `String(n)` in exponent form (magnitude at least 10^21) are left out.
- LocalFunctions.HandleLocalFunction: the element's volume is an integer percentage, not a float from 0.0 to 1.0. Floating-point drift from repeated ±0.1 steps is not modelled, and `Math.round(v * 100)` is taken to give the percentage back.
- LocalFunctions.AdjustMovesOneStep: stated only for a starting volume in [0, 100]. The validity invariant guarantees such a volume for every reachable client.
- Callbacks are reduced to whether each one is registered. The application code behind them is not part of this model, and neither are exceptions thrown from inside a callback.
- Channel and track events on a client that does not hold the handle are no-ops. The channel handlers change only the channel's ready state and the track handler only the playback element. Frames arrive through the channel's `onmessage`, so they are dispatched only while the channel is open, and the open event acts only on a channel that is still connecting. The exception is `onclose`, which stays bound after `disconnect`. Autoplay refusal of `play()` is swallowed by the code and does not appear.
- Lifecycle.TrackArrived: a track is handled on any client that holds a peer connection. In the code `ontrack` is bound only once the microphone is captured (VoiceClient.ts:146), so a track after a failed microphone capture, which the model would still turn into a playback element, is not ruled out by the model; in practice no track can arrive then, because no remote description was set.
- `Released` effects stand for `close()` on the channel and on the peer connection, `stop()` on every microphone track, and `pause()` on the playback element.
- The Svelte component, the store wrappers and the other framework bindings are not part of this model.

=== FILE: client.dfy ===
/** The state of one `VoiceClient`: its configuration, the callbacks the
    caller registered, and the nullable handles a connection acquires. */
module ClientState {
  import opened Wrappers
  import opened Protocol

  const DefaultServerUrl := "https://api.itannix.com"

  /** Constructor options; `serverUrl` may be left out. */
  datatype Options = Options(workspaceKey: string, clientId: string, clientSecret: string, serverUrl: Option<string>)

  /** Which of the four public callback properties hold a function. */
  datatype Callbacks = Callbacks(onTranscript: bool, onAssistantMessage: bool, onFunctionCall: bool, onStatusChange: bool)

  const NoCallbacks := Callbacks(false, false, false, false)
  const AllCallbacks := Callbacks(true, true, true, true)

  datatype ReadyState = ReadyConnecting | ReadyOpen | ReadyClosing | ReadyClosed

  /** The `messages` data channel. */
  datatype DataChannel = DataChannel(name: string, ordered: bool, readyState: ReadyState)

  /** The peer connection with the parts of its state the client drives. */
  datatype PeerConnection = PeerConnection(
    iceServers: seq<IceServer>,
    sendsMicrophone: bool,
    localDescription: Option<string>,
    iceGatheringComplete: bool,
    remoteDescription: Option<string>)

  /** The microphone stream, recorded with the constraints it was requested with. */
  datatype LocalStream = Microphone(sampleRate: nat, channelCount: nat, echoCancellation: bool, noiseSuppression: bool)

  /** The playback element for the remote track; `volume` is a percentage
      (the element's 0.0-1.0 volume times 100). */
  datatype AudioSink = AudioSink(volume: int)

  datatype Client = Client(
    credentials: Credentials,
    serverUrl: string,
    callbacks: Callbacks,
    session: Option<SessionResponse>,
    peer: Option<PeerConnection>,
    channel: Option<DataChannel>,
    localStream: Option<LocalStream>,
    remoteAudio: Option<AudioSink>)

  /** A client and the effects an operation on it produced, in order. */
  datatype Step = Step(client: Client, effects: seq<Effect>)

  /** `new VoiceClient(options)`: no handles, no callbacks, and the default
      server address unless one was given. */
  function NewClient(options: Options): (c: Client)
    ensures c.credentials == Credentials(options.workspaceKey, options.clientId, options.clientSecret)
    ensures options.serverUrl.Some? ==> c.serverUrl == options.serverUrl.value
    ensures options.serverUrl.None? ==> c.serverUrl == DefaultServerUrl
    ensures c.callbacks == NoCallbacks
    ensures c.session.None? && c.peer.None? && c.channel.None? && c.localStream.None? && c.remoteAudio.None?
  {
    Client(Credentials(options.workspaceKey, options.clientId, options.clientSecret),
           options.serverUrl.GetOr(DefaultServerUrl), NoCallbacks, None, None, None, None, None)
  }

  /** `updateStatus`: the status callback fires once when registered, and
      nothing happens otherwise. */
  function UpdateStatus(c: Client, status: ConnectionStatus): (effects: seq<Effect>)
    ensures StatusEvents(effects) == (if c.callbacks.onStatusChange then [status] else [])
    ensures forall e :: e in effects ==> e == StatusChanged(status)
  {
    if c.callbacks.onStatusChange then [StatusChanged(status)] else []
  }

  predicate ChannelIsOpen(c: Client) {
    c.channel.Some? && c.channel.value.readyState == ReadyOpen
  }

  predicate ChannelIsConnecting(c: Client) {
    c.channel.Some? && c.channel.value.readyState == ReadyConnecting
  }

  /** What every reachable client satisfies: each handle hangs off a peer
      connection, the channel is the ordered `messages` channel, and the
      playback volume is a percentage. */
  predicate Valid(c: Client) {
    && (c.channel.Some? ==> c.peer.Some? && c.channel.value.name == "messages" && c.channel.value.ordered)
    && (c.localStream.Some? ==> c.peer.Some?)
    && (c.remoteAudio.Some? ==> c.peer.Some? && 0 <= c.remoteAudio.value.volume <= 100)
  }

  /** Whether the client holds the given resource. */
  predicate Holds(c: Client, r: Resource) {
    match r
    case ChannelHandle => c.channel.Some?
    case PeerHandle => c.peer.Some?
    case MicrophoneTracks => c.localStream.Some?
    case AudioPlayback => c.remoteAudio.Some?
  }

  /** Two clients that agree on everything but the playback element. */
  predicate SameButAudio(a: Client, b: Client) {
    a.(remoteAudio := b.remoteAudio) == b
  }

  /** Two clients that agree on everything but the ready state of the data
      channel: both hold the same channel, or neither holds one. */
  predicate SameButReadyState(a: Client, b: Client) {
    && a.(channel := b.channel) == b
    && (a.channel.Some? <==> b.channel.Some?)
    && (a.channel.Some? ==> a.channel.value.(readyState := b.channel.value.readyState) == b.channel.value)
  }
}

=== FILE: clientrun.dfy ===
/** The client as one state machine: every public call and every browser
    event is a step, and a run is a sequence of steps applied in order. */
module ClientRun {
  import opened JsValues
  import opened Protocol
  import opened ClientState
  import opened Dispatch
  import opened Lifecycle
  import opened LifecycleProperties

  datatype Event =
    | SetCallbacks(callbacks: Callbacks)
    | CallConnect(env: Environment)
    | CallDisconnect
    | CallSendFunctionResult(callId: string, result: Record)
    | ChannelOpens
    | ChannelCloses
    | TrackArrives
    | FrameArrives(frame: Inbound)

  function Apply(c: Client, ev: Event): Step {
    match ev
    case SetCallbacks(callbacks) => Step(c.(callbacks := callbacks), [])
    case CallConnect(env) => var o := Connect(c, env); Step(o.client, o.effects)
    case CallDisconnect => Disconnect(c)
    case CallSendFunctionResult(callId, result) => Step(c, SendFunctionResult(c, callId, result))
    case ChannelOpens => ChannelOpened(c)
    case ChannelCloses => ChannelClosed(c)
    case TrackArrives => TrackArrived(c)
    case FrameArrives(frame) => if ChannelIsOpen(c) then Deliver(c, frame) else Step(c, [])
  }

  function Run(c: Client, events: seq<Event>): Step
    decreases |events|
  {
    if |events| == 0 then Step(c, [])
    else
      var first := Apply(c, events[0]);
      var rest := Run(first.client, events[1..]);
      Step(rest.client, first.effects + rest.effects)
  }

  /** Frames arrive through the channel's `onmessage`, so only an open
      channel delivers them: on any other client a frame does nothing, and
      on an open one it is dispatched. */
  lemma FramesNeedOpenChannel(c: Client, frame: Inbound)
    ensures !ChannelIsOpen(c) ==> Apply(c, FrameArrives(frame)) == Step(c, [])
    ensures ChannelIsOpen(c) ==> Apply(c, FrameArrives(frame)) == Deliver(c, frame)
  {
  }

  /** The channel's open handler is the one place `connected` is reported,
      and it sends exactly one `session.update`, enabling transcription. */
  lemma ChannelOpenConnects(c: Client)
    requires ChannelIsConnecting(c)
    ensures var s := ChannelOpened(c);
            && StatusEvents(s.effects) == (if c.callbacks.onStatusChange then [Connected] else [])
            && Outbox(s.effects) == [SessionUpdate(TranscriptionModel)]
            && ChannelIsOpen(s.client)
  {
    var s := ChannelOpened(c);
    StatusEventsAppend(UpdateStatus(c, Connected), [Sent(SessionUpdate(TranscriptionModel))]);
    OutboxAppend(UpdateStatus(c, Connected), [Sent(SessionUpdate(TranscriptionModel))]);
    NoStatusEvents([Sent(SessionUpdate(TranscriptionModel))]);
    assert Outbox(UpdateStatus(c, Connected)) == [];
  }

  /** No step but the channel opening reports `connected`. */
  lemma OnlyChannelOpenConnects(c: Client, ev: Event)
    ensures ev != ChannelOpens ==> StatusChanged(Connected) !in Apply(c, ev).effects
  {
    match ev
    case CallConnect(env) => ConnectAnnouncesConnecting(c, env);
    case FrameArrives(frame) =>
    case _ =>
  }

  /** Only `disconnect` and the channel's close handler report
      `disconnected`; in particular a failed `connect` does not. */
  lemma OnlyTeardownDisconnects(c: Client, ev: Event)
    ensures ev != CallDisconnect && ev != ChannelCloses ==> StatusChanged(Disconnected) !in Apply(c, ev).effects
  {
    match ev
    case CallConnect(env) => ConnectAnnouncesConnecting(c, env);
    case ChannelOpens =>
    case FrameArrives(frame) =>
    case _ =>
  }

  /** Over a whole run, `connected` is reported only if the channel
      opened at some point. */
  lemma {:induction false} ConnectedNeedsChannelOpen(c: Client, events: seq<Event>)
    requires StatusChanged(Connected) in Run(c, events).effects
    ensures ChannelOpens in events
    decreases |events|
  {
    var first := Apply(c, events[0]);
    var rest := Run(first.client, events[1..]);
    if StatusChanged(Connected) in first.effects {
      OnlyChannelOpenConnects(c, events[0]);
    } else {
      ConnectedNeedsChannelOpen(first.client, events[1..]);
    }
  }

  lemma ApplyKeepsValid(c: Client, ev: Event)
    requires Valid(c)
    ensures Valid(Apply(c, ev).client)
  {
    match ev
    case CallConnect(env) => ConnectKeepsValid(c, env);
    case FrameArrives(frame) => DeliverKeepsValid(c, frame);
    case _ =>
  }

  /** Every client a run reaches from a valid one is valid: handles hang
      off a peer connection, the channel is the ordered `messages` channel,
      and the playback volume is a percentage. */
  lemma {:induction false} RunKeepsValid(c: Client, events: seq<Event>)
    requires Valid(c)
    ensures Valid(Run(c, events).client)
    decreases |events|
  {
    if |events| > 0 {
      ApplyKeepsValid(c, events[0]);
      RunKeepsValid(Apply(c, events[0]).client, events[1..]);
    }
  }

  /** A new client is valid. */
  lemma NewClientValid(options: Options)
    ensures Valid(NewClient(options))
  {
  }

  /** Two steps in a row. */
  lemma RunTwo(c: Client, a: Event, b: Event)
    ensures var first := Apply(c, a);
            var second := Apply(first.client, b);
            Run(c, [a, b]) == Step(second.client, first.effects + second.effects)
  {
    var first := Apply(c, a);
    var second := Apply(first.client, b);
    assert [a, b][1..] == [b];
    assert [b][1..] == [];
    assert Run(second.client, []) == Step(second.client, []);
    assert Run(first.client, [b]) == Step(second.client, second.effects + []);
    assert second.effects + [] == second.effects;
  }

  /** After a successful `connect` the channel exists and is still
      connecting, `connecting` was the one status reported and nothing was
      sent on the channel. */
  lemma ConnectedClientHasChannel(c: Client, env: Environment)
    requires c.callbacks.onStatusChange
    requires PreparationSucceeds(env) && env.sdpReply.Ok? && SetRemoteDescription !in env.throwing
    ensures var o := Connect(c, env);
            && ChannelIsConnecting(o.client)
            && o.client.callbacks == c.callbacks
            && StatusEvents(o.effects) == [Connecting]
            && Outbox(o.effects) == []
  {
    ConnectSucceeds(c, env);
    ConnectAnnouncesConnecting(c, env);
    PreparationReaches(c, env);
    var posts := [Posted(SessionRequestOf(c)), Posted(SdpRequestOf(c, env.gatheredSdp))];
    OutboxAppend(UpdateStatus(c, Connecting), posts);
    OutboxAppend([posts[0]], [posts[1]]);
    assert [posts[0]] + [posts[1]] == posts;
  }

  /** `connect` followed by the channel opening, as one run. */
  lemma RunConnectThenOpen(c: Client, env: Environment)
    ensures var o := Connect(c, env);
            var s := Run(c, [CallConnect(env), ChannelOpens]);
            && s.client == ChannelOpened(o.client).client
            && s.effects == o.effects + ChannelOpened(o.client).effects
  {
    RunTwo(c, CallConnect(env), ChannelOpens);
  }

  /** Status reports and channel messages of two effect logs in a row. */
  lemma JoinLogs(a: seq<Effect>, b: seq<Effect>, sa: seq<ConnectionStatus>, sb: seq<ConnectionStatus>,
                 oa: seq<Outbound>, ob: seq<Outbound>)
    requires StatusEvents(a) == sa && StatusEvents(b) == sb
    requires Outbox(a) == oa && Outbox(b) == ob
    ensures StatusEvents(a + b) == sa + sb && Outbox(a + b) == oa + ob
  {
    StatusEventsAppend(a, b);
    OutboxAppend(a, b);
  }

  /** A successful handshake reports `connecting` and then `connected`. */
  lemma HandshakeStatusEvents(c: Client, env: Environment)
    requires c.callbacks.onStatusChange
    requires PreparationSucceeds(env) && env.sdpReply.Ok? && SetRemoteDescription !in env.throwing
    ensures StatusEvents(Run(c, [CallConnect(env), ChannelOpens]).effects) == [Connecting, Connected]
  {
    var o := Connect(c, env);
    var openStep := ChannelOpened(o.client);
    RunConnectThenOpen(c, env);
    var effects := Run(c, [CallConnect(env), ChannelOpens]).effects;
    assert effects == o.effects + openStep.effects;
    HandshakeStatusParts(c, env);
    StatusEventsAppend(o.effects, openStep.effects);
    assert [Connecting] + [Connected] == [Connecting, Connected];
  }

  /** The status reports of the two halves of a successful handshake. */
  lemma HandshakeStatusParts(c: Client, env: Environment)
    requires c.callbacks.onStatusChange
    requires PreparationSucceeds(env) && env.sdpReply.Ok? && SetRemoteDescription !in env.throwing
    ensures var o := Connect(c, env);
            && StatusEvents(o.effects) == [Connecting]
            && StatusEvents(ChannelOpened(o.client).effects) == [Connected]
  {
    ConnectedClientHasChannel(c, env);
    ChannelOpenConnects(Connect(c, env).client);
  }

  /** A successful handshake sends exactly one `session.update`. */
  lemma HandshakeOutbox(c: Client, env: Environment)
    requires c.callbacks.onStatusChange
    requires PreparationSucceeds(env) && env.sdpReply.Ok? && SetRemoteDescription !in env.throwing
    ensures Outbox(Run(c, [CallConnect(env), ChannelOpens]).effects) == [SessionUpdate(TranscriptionModel)]
  {
    ConnectedClientHasChannel(c, env);
    ChannelOpenConnects(Connect(c, env).client);
    RunConnectThenOpen(c, env);
    JoinLogs(Connect(c, env).effects, ChannelOpened(Connect(c, env).client).effects,
             [Connecting], [Connected], [], [SessionUpdate(TranscriptionModel)]);
  }

  /** A successful handshake ends with an open channel. */
  lemma HandshakeOpensChannel(c: Client, env: Environment)
    requires c.callbacks.onStatusChange
    requires PreparationSucceeds(env) && env.sdpReply.Ok? && SetRemoteDescription !in env.throwing
    ensures ChannelIsOpen(Run(c, [CallConnect(env), ChannelOpens]).client)
  {
    ConnectedClientHasChannel(c, env);
    RunConnectThenOpen(c, env);
  }

  /** The full handshake: a client with a status callback that connects
      successfully and then sees its channel open reports exactly
      `connecting` and then `connected`, sends one `session.update`, and ends
      with an open channel. */
  lemma HandshakeReportsConnectingThenConnected(c: Client, env: Environment)
    requires c.callbacks.onStatusChange
    requires PreparationSucceeds(env) && env.sdpReply.Ok? && SetRemoteDescription !in env.throwing
    ensures var s := Run(c, [CallConnect(env), ChannelOpens]);
            && StatusEvents(s.effects) == [Connecting, Connected]
            && Outbox(s.effects) == [SessionUpdate(TranscriptionModel)]
            && ChannelIsOpen(s.client)
  {
    HandshakeStatusEvents(c, env);
    HandshakeOutbox(c, env);
    HandshakeOpensChannel(c, env);
  }

  /** A handshake whose session request fails reports `connecting` and
      nothing after it: the status is not returned to `disconnected`. */
  lemma FailedHandshakeStaysConnecting(options: Options, env: Environment)
    requires !env.sessionReply.Ok?
    ensures var c := NewClient(options).(callbacks := AllCallbacks);
            StatusEvents(Run(c, [CallConnect(env)]).effects) == [Connecting]
  {
    var c := NewClient(options).(callbacks := AllCallbacks);
    ConnectAnnouncesConnecting(c, env);
    var o := Connect(c, env);
    assert [CallConnect(env)][1..] == [];
    assert o.effects + [] == o.effects;
  }
}

=== FILE: dispatch.dfy ===
/** The inbound dispatcher and the outbound result sender: what the client
    does with each data-channel frame, and how a function result goes back. */
module Dispatch {
  import opened Wrappers
  import opened JsValues
  import opened Protocol
  import opened ClientState
  import opened LocalFunctions

  /** Handling one frame either runs to completion or throws part-way; a
      throw aborts only that frame, before it had any effect. */
  datatype FrameOutcome = Dispatched(step: Step) | Aborted

  /** Outbound messages that come as `conversation.item.create` /
      `response.create` pairs, in that order. */
  predicate Paired(out: seq<Outbound>)
    decreases |out|
  {
    |out| == 0 || (|out| >= 2 && out[0].ItemCreate? && out[1] == ResponseCreate && Paired(out[2..]))
  }

  lemma {:induction false} PairedAppend(a: seq<Outbound>, b: seq<Outbound>)
    requires Paired(a) && Paired(b)
    ensures Paired(a + b)
    decreases |a|
  {
    if |a| == 0 {
      assert a + b == b;
    } else {
      assert (a + b)[2..] == a[2..] + b;
      PairedAppend(a[2..], b);
    }
  }

  /** `sendFunctionResult`: on an open channel, the result tagged with its
      call id and then a request for a new response; otherwise nothing. */
  function SendFunctionResult(c: Client, callId: string, result: Record): (effects: seq<Effect>)
    ensures |effects| == (if ChannelIsOpen(c) then 2 else 0)
    ensures forall e :: e in effects ==> e.Sent?
    ensures |effects| == 2 ==>
              effects[0].message.ItemCreate? && effects[0].message.callId == callId
              && effects[0].message.output == result && effects[1].message == ResponseCreate
    ensures Paired(Outbox(effects))
  {
    if ChannelIsOpen(c) then [Sent(ItemCreate(callId, result)), Sent(ResponseCreate)] else []
  }

  predicate IsFunctionCall(m: RealtimeMessage) {
    m.kind == OutputItemDoneType && m.item.Some? && m.item.value.kind == FunctionCallItemType
  }

  /** `handleMessage`: classifies a message by its type and fires the one
      callback that type calls for; a function call goes to the local router
      first and reaches the application only when the router declines. */
  function HandleMessage(c: Client, m: RealtimeMessage): (d: FrameOutcome)
    ensures d.Dispatched? ==> SameButAudio(d.step.client, c)
    ensures d.Dispatched? ==> (d.step.client.remoteAudio.Some? <==> c.remoteAudio.Some?)
    ensures d.Dispatched? && d.step.client.remoteAudio != c.remoteAudio ==> IsFunctionCall(m)
    ensures d.Dispatched? ==> |d.step.effects| <= 2 && StatusEvents(d.step.effects) == []
    ensures d.Dispatched? ==> Paired(Outbox(d.step.effects))
    ensures d.Aborted? ==> IsFunctionCall(m)
  {
    if m.kind == UserTranscriptType then
      Dispatched(Step(c, if c.callbacks.onTranscript && Present(m.transcript)
                         then [TranscriptFired(m.transcript.value)] else []))
    else if m.kind == AssistantDeltaType then
      Dispatched(Step(c, if c.callbacks.onAssistantMessage && Present(m.delta)
                         then [AssistantMessageFired(m.delta.value, false)] else []))
    else if m.kind == AssistantDoneType then
      Dispatched(Step(c, if c.callbacks.onAssistantMessage && Present(m.transcript)
                         then [AssistantMessageFired(m.transcript.value, true)] else []))
    else if IsFunctionCall(m) then
      var item := m.item.value;
      match item.arguments.GetOr(ArgumentsObject(map[]))
      case ArgumentsMalformed => Aborted
      case ArgumentsObject(args) =>
        match HandleLocalFunction(c.remoteAudio, item.name, args)
        case Threw => Aborted
        case Handled(sink, result) =>
          var next := c.(remoteAudio := Some(sink));
          Dispatched(Step(next, SendFunctionResult(next, item.callId, result)))
        case NotHandled =>
          Dispatched(Step(c, if c.callbacks.onFunctionCall
                             then [FunctionCallFired(item.name, args, item.callId)] else []))
    else
      Dispatched(Step(c, []))
  }

  /** The `onmessage` handler: a frame that is not JSON throws before
      anything is dispatched. */
  function Receive(c: Client, frame: Inbound): (d: FrameOutcome)
    ensures frame.Garbled? ==> d.Aborted?
  {
    match frame
    case Garbled => Aborted
    case Frame(m) => HandleMessage(c, m)
  }

  /** The state after one frame, an aborted frame leaving everything as it was. */
  function Deliver(c: Client, frame: Inbound): (s: Step)
    ensures SameButAudio(s.client, c)
  {
    match Receive(c, frame)
    case Aborted => Step(c, [])
    case Dispatched(step) => step
  }

  /** Frames delivered in arrival order, as the ordered channel guarantees. */
  function DeliverAll(c: Client, frames: seq<Inbound>): (s: Step)
    decreases |frames|
  {
    if |frames| == 0 then Step(c, [])
    else
      var first := Deliver(c, frames[0]);
      var rest := DeliverAll(first.client, frames[1..]);
      Step(rest.client, first.effects + rest.effects)
  }

  // ------------------------------------------------------------ transcripts

  /** A completed user transcript fires the transcript callback once with its
      text, when the callback is set and the text is non-empty, and nothing
      otherwise; no state changes. */
  lemma UserTranscriptFiresOnce(c: Client, m: RealtimeMessage)
    requires m.kind == UserTranscriptType
    ensures var d := HandleMessage(c, m);
            && d.Dispatched? && d.step.client == c
            && (c.callbacks.onTranscript && Present(m.transcript) ==> d.step.effects == [TranscriptFired(m.transcript.value)])
            && (!c.callbacks.onTranscript || !Present(m.transcript) ==> d.step.effects == [])
  {
  }

  /** A transcript delta fires the assistant-message callback once with the
      delta and `done == false`, under the same conditions. */
  lemma AssistantDeltaFiresOnce(c: Client, m: RealtimeMessage)
    requires m.kind == AssistantDeltaType
    ensures var d := HandleMessage(c, m);
            && d.Dispatched? && d.step.client == c
            && (c.callbacks.onAssistantMessage && Present(m.delta) ==>
                  d.step.effects == [AssistantMessageFired(m.delta.value, false)])
            && (!c.callbacks.onAssistantMessage || !Present(m.delta) ==> d.step.effects == [])
  {
  }

  /** A finished assistant transcript fires the assistant-message callback
      once with the full transcript and `done == true`. */
  lemma AssistantDoneFiresOnce(c: Client, m: RealtimeMessage)
    requires m.kind == AssistantDoneType
    ensures var d := HandleMessage(c, m);
            && d.Dispatched? && d.step.client == c
            && (c.callbacks.onAssistantMessage && Present(m.transcript) ==>
                  d.step.effects == [AssistantMessageFired(m.transcript.value, true)])
            && (!c.callbacks.onAssistantMessage || !Present(m.transcript) ==> d.step.effects == [])
  {
  }

  /** Any other message type, and an output item that is not a function
      call, has no effect at all. */
  lemma UnrecognisedIgnored(c: Client, m: RealtimeMessage)
    requires m.kind != UserTranscriptType && m.kind != AssistantDeltaType && m.kind != AssistantDoneType
    requires !IsFunctionCall(m)
    ensures HandleMessage(c, m) == Dispatched(Step(c, []))
  {
  }

  // --------------------------------------------------------- function calls

  function DeltaFrame(text: string): Inbound {
    Frame(RealtimeMessage(AssistantDeltaType, None, Some(text), None))
  }

  function DoneFrame(text: string): Inbound {
    Frame(RealtimeMessage(AssistantDoneType, Some(text), None, None))
  }

  /** N non-empty deltas followed by one finished transcript fire the
      assistant-message callback N times with `done == false` and then once
      with `done == true`, in arrival order. */
  lemma {:induction false} DeltasThenDone(c: Client, deltas: seq<string>, final: string)
    requires c.callbacks.onAssistantMessage
    requires forall i :: 0 <= i < |deltas| ==> deltas[i] != ""
    requires final != ""
    ensures DeliverAll(c, seq(|deltas|, i requires 0 <= i < |deltas| => DeltaFrame(deltas[i])) + [DoneFrame(final)])
            == Step(c, seq(|deltas|, i requires 0 <= i < |deltas| => AssistantMessageFired(deltas[i], false))
                       + [AssistantMessageFired(final, true)])
    decreases |deltas|
  {
    var frames := seq(|deltas|, i requires 0 <= i < |deltas| => DeltaFrame(deltas[i])) + [DoneFrame(final)];
    var fired := seq(|deltas|, i requires 0 <= i < |deltas| => AssistantMessageFired(deltas[i], false));
    if |deltas| == 0 {
      assert frames == [DoneFrame(final)];
      assert fired == [];
      assert DeliverAll(c, frames[1..]) == Step(c, []);
    } else {
      var rest := deltas[1..];
      var restFrames := seq(|rest|, i requires 0 <= i < |rest| => DeltaFrame(rest[i])) + [DoneFrame(final)];
      var restFired := seq(|rest|, i requires 0 <= i < |rest| => AssistantMessageFired(rest[i], false));
      assert frames[0] == DeltaFrame(deltas[0]);
      assert frames[1..] == restFrames;
      assert fired == [AssistantMessageFired(deltas[0], false)] + restFired;
      assert Deliver(c, frames[0]) == Step(c, [AssistantMessageFired(deltas[0], false)]);
      DeltasThenDone(c, rest, final);
    }
  }

  /** A function call the local router handles is answered on the data
      channel with the call's own id, and the application never sees it. */
  lemma LocalCallAnsweredLocally(c: Client, m: RealtimeMessage, args: Record)
    requires IsFunctionCall(m)
    requires m.item.value.arguments.GetOr(ArgumentsObject(map[])) == ArgumentsObject(args)
    requires HandleLocalFunction(c.remoteAudio, m.item.value.name, args).Handled?
    ensures var o := HandleLocalFunction(c.remoteAudio, m.item.value.name, args);
            var d := HandleMessage(c, m);
            && d.Dispatched?
            && d.step.client == c.(remoteAudio := Some(o.sink))
            && d.step.effects == (if ChannelIsOpen(c) then [Sent(ItemCreate(m.item.value.callId, o.result)), Sent(ResponseCreate)] else [])
            && forall e :: e in d.step.effects ==> !e.FunctionCallFired?
  {
  }

  /** A function call the router declines goes to the application's callback
      with its original name, arguments and call id, and nothing is sent. */
  lemma OtherCallsForwarded(c: Client, m: RealtimeMessage, args: Record)
    requires IsFunctionCall(m)
    requires m.item.value.arguments.GetOr(ArgumentsObject(map[])) == ArgumentsObject(args)
    requires HandleLocalFunction(c.remoteAudio, m.item.value.name, args).NotHandled?
    ensures var d := HandleMessage(c, m);
            && d.Dispatched? && d.step.client == c
            && (c.callbacks.onFunctionCall ==>
                  d.step.effects == [FunctionCallFired(m.item.value.name, args, m.item.value.callId)])
            && (!c.callbacks.onFunctionCall ==> d.step.effects == [])
  {
  }

  /** A name outside the three device functions is never answered locally,
      whatever the arguments and whatever the playback state. */
  lemma UnknownNamesReachApplication(c: Client, m: RealtimeMessage, args: Record)
    requires IsFunctionCall(m) && !IsLocalName(m.item.value.name)
    requires m.item.value.arguments.GetOr(ArgumentsObject(map[])) == ArgumentsObject(args)
    ensures c.callbacks.onFunctionCall ==>
              HandleMessage(c, m) == Dispatched(Step(c, [FunctionCallFired(m.item.value.name, args, m.item.value.callId)]))
  {
  }

  /** Absent `arguments` read as the empty object; arguments that are not
      JSON abort the frame. */
  lemma ArgumentsDefaultToEmpty(c: Client, m: RealtimeMessage)
    requires IsFunctionCall(m)
    ensures m.item.value.arguments.None? ==>
              HandleMessage(c, m)
              == HandleMessage(c, m.(item := Some(m.item.value.(arguments := Some(ArgumentsObject(map[]))))))
    ensures m.item.value.arguments == Some(ArgumentsMalformed) ==> HandleMessage(c, m) == Aborted
  {
  }

  // ------------------------------------------------------------- invariants

  /** However many frames arrive, the data-channel traffic they cause is a
      sequence of complete result/response pairs, the status never changes,
      and only the playback element can differ afterwards. */
  lemma {:induction false} DeliverAllKeepsProtocol(c: Client, frames: seq<Inbound>)
    ensures var s := DeliverAll(c, frames);
            Paired(Outbox(s.effects)) && StatusEvents(s.effects) == [] && SameButAudio(s.client, c)
    decreases |frames|
  {
    if |frames| > 0 {
      var first := Deliver(c, frames[0]);
      var rest := DeliverAll(first.client, frames[1..]);
      DeliverAllKeepsProtocol(first.client, frames[1..]);
      OutboxAppend(first.effects, rest.effects);
      StatusEventsAppend(first.effects, rest.effects);
      PairedAppend(Outbox(first.effects), Outbox(rest.effects));
    }
  }

  /** Frame handling keeps the client valid: the playback volume stays a
      percentage. */
  lemma DeliverKeepsValid(c: Client, frame: Inbound)
    requires Valid(c)
    ensures Valid(Deliver(c, frame).client)
  {
  }

  lemma {:induction false} DeliverAllKeepsValid(c: Client, frames: seq<Inbound>)
    requires Valid(c)
    ensures Valid(DeliverAll(c, frames).client)
    decreases |frames|
  {
    if |frames| > 0 {
      DeliverKeepsValid(c, frames[0]);
      DeliverAllKeepsValid(Deliver(c, frames[0]).client, frames[1..]);
    }
  }
}

=== FILE: errors.dfy ===
/** Translation of a failed HTTP response into the error `connect` throws. */
module ErrorTranslator {
  import opened Wrappers
  import opened Numerals
  import opened JsValues
  import opened Protocol

  /** The thrown `Error` with its `status` and `hint` properties. */
  datatype AppError = AppError(message: string, status: nat, hint: Option<string>)

  /** The message used when nothing better is known: "{fallback} ({status})". */
  function DefaultMessage(fallback: string, status: nat): string {
    fallback + " (" + NatToString(status) + ")"
  }

  /** The message used when the body is not JSON: "{fallback}: {statusText}". */
  function StatusTextMessage(fallback: string, statusText: string): string {
    fallback + ": " + statusText
  }

  /** Builds the error for a failed response. A truthy `message` in the JSON
      body wins; a body that does not parse gives the status-text message when
      there is a status text; otherwise the default message stands. The hint
      is the body's truthy `hint` or absent, and the status is always the
      response's own. */
  function ParseError(response: ErrorResponse, fallback: string): (e: AppError)
    ensures e.status == response.status
    ensures response.body.ErrorJson? && Present(response.body.message) ==> e.message == response.body.message.value
    ensures response.body.Unparseable? && response.statusText != "" ==>
              e.message == StatusTextMessage(fallback, response.statusText)
    ensures (response.body.Unparseable? && response.statusText == "")
            || (response.body.ErrorJson? && !Present(response.body.message)) ==>
              e.message == DefaultMessage(fallback, response.status)
    ensures e.hint.Some? <==> response.body.ErrorJson? && Present(response.body.hint)
    ensures e.hint.Some? ==> e.hint == response.body.hint
  {
    var message := DefaultMessage(fallback, response.status);
    match response.body
    case Unparseable =>
      AppError(if response.statusText != "" then StatusTextMessage(fallback, response.statusText) else message,
               response.status, None)
    case ErrorJson(bodyMessage, bodyHint) =>
      AppError(if Present(bodyMessage) then bodyMessage.value else message,
               response.status, if Present(bodyHint) then bodyHint else None)
  }

  /** Unless the body supplied its own message, the error message starts with
      the caller's fallback text, so the failing stage stays recognisable. */
  lemma MessageKeepsFallback(response: ErrorResponse, fallback: string)
    ensures var e := ParseError(response, fallback);
            (response.body.ErrorJson? && Present(response.body.message)) || fallback <= e.message
  {
  }

  /** The status code in the default message reads back as the response
      status: the digits between the parentheses parse to it. */
  lemma {:induction false} DefaultMessageCarriesStatus(fallback: string, status: nat)
    ensures var m := DefaultMessage(fallback, status);
            |m| >= |fallback| + 3
            && m[|fallback| .. |fallback| + 2] == " ("
            && m[|m| - 1] == ')'
            && ParseInt(m[|fallback| + 2 .. |m| - 1]) == Some(status as int)
  {
    var digits := NatToString(status);
    var m := fallback + " (" + digits + ")";
    assert DefaultMessage(fallback, status) == m;
    assert m[|fallback| .. |fallback| + 2] == " (";
    assert m[|fallback| + 2 .. |m| - 1] == digits;
    assert IntToString(status) == digits;
    ParseIntOfDecimal(status);
  }

  /** A 401 whose JSON body has a message and a hint. */
  lemma RejectedKeyExample()
    ensures ParseError(ErrorResponse(401, "Unauthorized", ErrorJson(Some("bad key"), Some("rotate credentials"))),
                       "Session creation failed")
            == AppError("bad key", 401, Some("rotate credentials"))
  {
  }
}

=== FILE: jsvalues.dfy ===
/** The JSON values carried in function-call arguments and results, with the
    two JavaScript conversions the local router relies on: truthiness and
    `parseInt(String(v))`. */
module JsValues {
  import opened Wrappers
  import opened Numerals

  /** A decoded JSON value. Numbers are integers; an object is an atom whose
      fields the router never reads. */
  datatype Value = Null | Bool(b: bool) | Int(i: int) | Str(s: string) | Object

  /** A decoded JSON object (`Record<string, unknown>`). */
  type Record = map<string, Value>

  /** JavaScript truthiness: `null`, `false`, `0` and `""` are falsy. */
  predicate Truthy(v: Value) {
    match v
    case Null => false
    case Bool(b) => b
    case Int(i) => i != 0
    case Str(s) => s != ""
    case Object => true
  }

  /** An optional string field is truthy when present and non-empty. */
  predicate Present(field: Option<string>) {
    field.Some? && field.value != ""
  }

  /** JavaScript's `String(v)`. */
  function ToJsString(v: Value): string {
    match v
    case Null => "null"
    case Bool(b) => if b then "true" else "false"
    case Int(i) => IntToString(i)
    case Str(s) => s
    case Object => "[object Object]"
  }

  /** The white space and line terminators JavaScript strips before a number. */
  predicate IsJsSpace(ch: char) {
    || ch == '\t' || ch == '\n' || ch == '\U{B}' || ch == '\U{C}' || ch == '\r' || ch == ' '
    || ch == '\U{A0}' || ch == '\U{1680}' || ('\U{2000}' <= ch <= '\U{200A}')
    || ch == '\U{2028}' || ch == '\U{2029}' || ch == '\U{202F}' || ch == '\U{205F}'
    || ch == '\U{3000}' || ch == '\U{FEFF}'
  }

  /** `s` without its leading white space. */
  function TrimStart(s: string): (t: string)
    ensures |t| <= |s| && t == s[|s| - |t|..]
    ensures forall i :: 0 <= i < |s| - |t| ==> IsJsSpace(s[i])
    ensures |t| > 0 ==> !IsJsSpace(t[0])
    decreases |s|
  {
    if |s| > 0 && IsJsSpace(s[0]) then TrimStart(s[1..]) else s
  }

  predicate HasHexPrefix(s: string) {
    |s| >= 2 && s[0] == '0' && (s[1] == 'x' || s[1] == 'X')
  }

  /** JavaScript's `parseInt(s)` with no radix argument; `None` stands for NaN.
      Leading white space is skipped, one sign is read, a `0x`/`0X` prefix
      selects radix 16, and the longest run of digits that follows is the
      number; no digits at all is NaN. */
  function ParseInt(s: string): Option<int> {
    ParseTrimmed(TrimStart(s))
  }

  /** `t` without its one optional leading sign. */
  function Unsigned(t: string): (u: string)
    ensures u == t || (|t| > 0 && (t[0] == '-' || t[0] == '+') && u == t[1..])
  {
    if |t| > 0 && (t[0] == '-' || t[0] == '+') then t[1..] else t
  }

  /** `parseInt` on text that no longer starts with white space. */
  function ParseTrimmed(t: string): Option<int> {
    var negative := |t| > 0 && t[0] == '-';
    var u := Unsigned(t);
    var radix := if HasHexPrefix(u) then 16 else 10;
    var body := if HasHexPrefix(u) then u[2..] else u;
    var digits := DigitPrefix(body, radix);
    var magnitude: int := if |digits| == 0 then 0 else DigitsValue(digits, radix);
    if |digits| == 0 then None
    else if negative then Some(-magnitude)
    else Some(magnitude)
  }

  /** `parseInt(String(n))` gives back `n` for every integer rendered in plain
      decimal, so a numeric `volume_level` reaches the clamp unchanged. */
  lemma {:induction false} ParseIntOfDecimal(n: int)
    ensures ParseInt(IntToString(n)) == Some(n)
  {
    var s := IntToString(n);
    var m: nat := if n < 0 then -n else n;
    var digits := NatToString(m);
    assert !IsJsSpace(s[0]);
    assert TrimStart(s) == s;
    if n < 0 {
      assert s[1..] == digits;
    }
    assert !HasHexPrefix(digits);
    DigitPrefixOfDigits(digits, 10);
    NatToStringValue(m);
  }

  /** Leading white space is exactly what `TrimStart` removes. */
  lemma {:induction false} TrimLeading(spaces: string, s: string)
    requires forall i :: 0 <= i < |spaces| ==> IsJsSpace(spaces[i])
    requires |s| == 0 || !IsJsSpace(s[0])
    ensures TrimStart(spaces + s) == s
    decreases |spaces|
  {
    if |spaces| > 0 {
      assert (spaces + s)[1..] == spaces[1..] + s;
      TrimLeading(spaces[1..], s);
    } else {
      assert spaces + s == s;
    }
  }

  /** Text that does not start with white space is not trimmed. */
  lemma TrimStartUnblank(s: string)
    requires |s| == 0 || !IsJsSpace(s[0])
    ensures TrimStart(s) == s
  {
  }

  /** Unsigned decimal text, not in hex form, reads as its digit prefix. */
  lemma ParseTrimmedDecimal(t: string)
    requires |t| > 0 && '0' <= t[0] <= '9' && !HasHexPrefix(t)
    ensures |DigitPrefix(t, 10)| > 0
    ensures ParseTrimmed(t) == Some(DigitsValue(DigitPrefix(t, 10), 10) as int)
  {
    assert IsDigitIn(t[0], 10);
  }

  /** Decimal digits followed by anything that does not start with a digit
      parse to the value of those digits. */
  lemma ParseIntOfDigits(digits: string, rest: string)
    requires |digits| > 0 && AllDigits(digits, 10) && !HasHexPrefix(digits + rest)
    requires |rest| == 0 || !IsDigitIn(rest[0], 10)
    ensures ParseInt(digits + rest) == Some(DigitsValue(digits, 10) as int)
  {
    var text := digits + rest;
    assert text[0] == digits[0];
    DecimalDigitNotBlank(digits[0]);
    TrimStartUnblank(text);
    DigitPrefixSplit(digits, rest, 10);
    ParseTrimmedDecimal(text);
  }

  /** Leading blanks do not change what `parseInt` reads. */
  lemma ParseIntSkipsBlanks(spaces: string, s: string)
    requires forall i :: 0 <= i < |spaces| ==> IsJsSpace(spaces[i])
    requires |s| == 0 || !IsJsSpace(s[0])
    ensures ParseInt(spaces + s) == ParseInt(s)
  {
    TrimLeading(spaces, s);
    assert TrimStart(s) == s;
  }

  /** The digits "42" have the value 42. */
  lemma FortyTwo()
    ensures AllDigits("42", 10) && DigitsValue("42", 10) == 42
  {
    assert "42"[..1] == "4" && "4"[..0] == "";
    assert DigitsValue("4", 10) == 4;
  }

  /** A decimal digit is not white space. */
  lemma DecimalDigitNotBlank(ch: char)
    requires IsDigitIn(ch, 10)
    ensures '0' <= ch <= '9' && !IsJsSpace(ch)
  {
  }

  /** `parseInt` skips leading blanks and reads the decimal digits that follow,
      stopping at the first character that is not a digit. */
  lemma ParseIntReadsLeadingNumber(spaces: string, digits: string, rest: string)
    requires forall i :: 0 <= i < |spaces| ==> IsJsSpace(spaces[i])
    requires |digits| > 0 && AllDigits(digits, 10) && !HasHexPrefix(digits + rest)
    requires |rest| == 0 || !IsDigitIn(rest[0], 10)
    ensures ParseInt(spaces + (digits + rest)) == Some(DigitsValue(digits, 10) as int)
  {
    ParseIntOfDigits(digits, rest);
    var text := digits + rest;
    assert text[0] == digits[0];
    DecimalDigitNotBlank(digits[0]);
    ParseIntSkipsBlanks(spaces, text);
  }

  /** `parseInt(" 42%")` is 42. */
  lemma ParseIntOfPaddedPercent()
    ensures ParseInt(" 42%") == Some(42)
  {
    FortyTwo();
    var t := "42" + "%";
    assert " 42%" == [' '] + t;
    assert !IsDigitIn('%', 10);
    DigitPrefixSplit("42", "%", 10);
    ParseIntOfDigits("42", "%");
    DecimalDigitNotBlank('4');
    assert t[0] == '4';
    assert TrimStart([' '] + t) == TrimStart(t);
  }

  /** Text that, after its blanks and one optional sign, does not start with
      a decimal digit is NaN: no digits can be read from it. */
  lemma ParseIntNoDigits(s: string)
    requires var u := Unsigned(TrimStart(s)); |u| == 0 || !IsDigitIn(u[0], 10)
    ensures ParseInt(s) == None
  {
    var u := Unsigned(TrimStart(s));
    assert !HasHexPrefix(u);
  }

  /** Text whose first character is neither blank, sign nor digit is NaN. */
  lemma ParseIntNaN(s: string)
    requires |s| == 0 || (!IsJsSpace(s[0]) && s[0] != '-' && s[0] != '+' && !IsDigitIn(s[0], 10))
    ensures ParseInt(s) == None
  {
    assert TrimStart(s) == s;
    assert !HasHexPrefix(s);
  }
}

=== FILE: lifecycle.dfy ===
/** The connection lifecycle: `connect` as an ordered sequence of stages,
    every one but the ICE wait able to fail, the handlers the browser calls once the channel
    and peer connection exist, and `disconnect`. Every browser capability
    is reduced to the outcome it delivers, given by an `Environment`. */
module Lifecycle {
  import opened Wrappers
  import opened Protocol
  import opened ErrorTranslator
  import opened ClientState

  const SessionsPath := "/v1/realtime/sessions"
  const SdpPath := "/v1/realtime"
  const Modalities := ["text", "audio"]
  const ChannelName := "messages"
  const DefaultIceServers := [IceServer("stun:stun.cloudflare.com:3478")]
  /** `new Audio()` starts at full volume. */
  const FullVolume := 100
  /** The microphone constraints `getUserMedia` is called with. */
  const MicrophoneConstraints := Microphone(48000, 1, true, true)

  /** The steps of `connect`, in the order they run. */
  datatype Stage =
    | CreateSession | CreatePeer | OpenChannel | CaptureMicrophone | CreateOffer
    | SetLocalDescription | GatherIce | SendOffer | SetRemoteDescription

  const Stages := [CreateSession, CreatePeer, OpenChannel, CaptureMicrophone, CreateOffer,
                   SetLocalDescription, GatherIce, SendOffer, SetRemoteDescription]

  /** What the browser and the server deliver during one `connect`: the two
      HTTP replies, the stages whose browser call throws, the offer
      `createOffer` produces, and the local description once ICE gathering
      has completed (the offer with its candidates). */
  datatype Environment = Environment(
    sessionReply: Reply<SessionResponse>,
    throwing: set<Stage>,
    offerSdp: string,
    gatheredSdp: string,
    sdpReply: Reply<string>)

  /** Why `connect` threw: a browser call or `fetch` rejected at a stage, or
      the server answered with a failure the error translator described. */
  datatype ConnectError = StageThrew(stage: Stage) | Refused(stage: Stage, error: AppError)

  datatype StageResult = Advanced(client: Client, effects: seq<Effect>) | Stopped(effects: seq<Effect>, error: ConnectError)

  /** Where `connect` ended: the client, the effects, how many stages ran
      (the stages run in order, so they are the first `stagesRun` of
      `Stages`), and the error it threw, if any. */
  datatype ConnectOutcome = ConnectOutcome(client: Client, effects: seq<Effect>, stagesRun: nat, error: Option<ConnectError>)

  function SessionRequestOf(c: Client): HttpRequest {
    HttpRequest(c.serverUrl + SessionsPath, "application/json", c.credentials, SessionRequest(Modalities))
  }

  function SdpRequestOf(c: Client, sdp: string): HttpRequest {
    HttpRequest(c.serverUrl + SdpPath, "application/sdp", c.credentials, SdpOffer(sdp))
  }

  /** The ICE servers of the session, or the public STUN server when the
      session response names none. */
  function IceServersOf(session: SessionResponse): seq<IceServer> {
    session.iceServers.GetOr(DefaultIceServers)
  }

  /** Whether the stage fails in this environment, whatever the client. */
  predicate StageFails(stage: Stage, env: Environment) {
    match stage
    case CreateSession => !env.sessionReply.Ok?
    case SendOffer => !env.sdpReply.Ok?
    case GatherIce => false
    case _ => stage in env.throwing
  }

  /** What a stage relies on the earlier ones to have done: the handles the
      source dereferences with `!`, and, for the last stage, the answer. */
  predicate Ready(stage: Stage, c: Client, env: Environment) {
    match stage
    case CreateSession => true
    case CreatePeer => c.session.Some?
    case SendOffer => c.peer.Some? && c.peer.value.localDescription.Some?
    case SetRemoteDescription => c.peer.Some? && env.sdpReply.Ok?
    case _ => c.peer.Some?
  }

  /** One stage of `connect`. A failing stage changes no handle; its only
      possible effect is the HTTP request it issued before failing. */
  function RunStage(stage: Stage, c: Client, env: Environment): (r: StageResult)
    requires Ready(stage, c, env)
    ensures r.Stopped? <==> StageFails(stage, env)
    ensures r.Stopped? ==> r.error.stage == stage
  {
    match stage
    case CreateSession =>
      var posted := [Posted(SessionRequestOf(c))];
      (match env.sessionReply
       case Rejected => Stopped(posted, StageThrew(CreateSession))
       case NotOk(response) => Stopped(posted, Refused(CreateSession, ParseError(response, "Session creation failed")))
       case Ok(session) => Advanced(c.(session := Some(session)), posted))
    case CreatePeer =>
      if CreatePeer in env.throwing then Stopped([], StageThrew(CreatePeer))
      else Advanced(c.(peer := Some(PeerConnection(IceServersOf(c.session.value), false, None, false, None))), [])
    case OpenChannel =>
      if OpenChannel in env.throwing then Stopped([], StageThrew(OpenChannel))
      else Advanced(c.(channel := Some(DataChannel(ChannelName, true, ReadyConnecting))), [])
    case CaptureMicrophone =>
      if CaptureMicrophone in env.throwing then Stopped([], StageThrew(CaptureMicrophone))
      else Advanced(c.(localStream := Some(MicrophoneConstraints),
                       peer := Some(c.peer.value.(sendsMicrophone := true))), [])
    case CreateOffer =>
      if CreateOffer in env.throwing then Stopped([], StageThrew(CreateOffer))
      else Advanced(c, [])
    case SetLocalDescription =>
      if SetLocalDescription in env.throwing then Stopped([], StageThrew(SetLocalDescription))
      else Advanced(c.(peer := Some(c.peer.value.(localDescription := Some(env.offerSdp)))), [])
    case GatherIce =>
      Advanced(c.(peer := Some(c.peer.value.(localDescription := Some(env.gatheredSdp), iceGatheringComplete := true))), [])
    case SendOffer =>
      var posted := [Posted(SdpRequestOf(c, c.peer.value.localDescription.value))];
      (match env.sdpReply
       case Rejected => Stopped(posted, StageThrew(SendOffer))
       case NotOk(response) => Stopped(posted, Refused(SendOffer, ParseError(response, "Connection failed")))
       case Ok(_) => Advanced(c, posted))
    case SetRemoteDescription =>
      if SetRemoteDescription in env.throwing then Stopped([], StageThrew(SetRemoteDescription))
      else Advanced(c.(peer := Some(c.peer.value.(remoteDescription := Some(env.sdpReply.body)))), [])
  }

  /** What a stage leaves alone: its only effects are HTTP requests; a stage
      that succeeds keeps the credentials, the address, the callbacks and the
      playback element; and every stage after the session keeps the session,
      the peer connection and its ICE servers. */
  lemma StageKeeps(stage: Stage, c: Client, env: Environment)
    requires Ready(stage, c, env)
    ensures var r := RunStage(stage, c, env);
            && (forall e :: e in r.effects ==> e.Posted?)
            && (r.Advanced? ==> r.client.credentials == c.credentials && r.client.serverUrl == c.serverUrl
                                && r.client.callbacks == c.callbacks && r.client.remoteAudio == c.remoteAudio)
            && (r.Advanced? && stage != CreateSession ==> r.client.session == c.session && r.client.peer.Some?)
            && (r.Advanced? && stage != CreateSession && stage != CreatePeer ==>
                  r.client.peer.value.iceServers == c.peer.value.iceServers)
  {
  }

  /** Each stage that succeeds leaves the client ready for the next one. */
  lemma StageEnablesNext(i: nat, c: Client, env: Environment)
    requires i < |Stages| && Ready(Stages[i], c, env)
    requires RunStage(Stages[i], c, env).Advanced?
    ensures i + 1 < |Stages| ==> Ready(Stages[i + 1], RunStage(Stages[i], c, env).client, env)
  {
  }

  /** The stages from index `i` on, stopping at the first that fails. */
  function RunStages(i: nat, c: Client, env: Environment): ConnectOutcome
    requires i <= |Stages|
    requires i < |Stages| ==> Ready(Stages[i], c, env)
    decreases |Stages| - i
  {
    if i == |Stages| then ConnectOutcome(c, [], 0, None)
    else
      match RunStage(Stages[i], c, env)
      case Stopped(effects, error) => ConnectOutcome(c, effects, 1, Some(error))
      case Advanced(next, effects) =>
        StageEnablesNext(i, c, env);
        var rest := RunStages(i + 1, next, env);
        ConnectOutcome(rest.client, effects + rest.effects, 1 + rest.stagesRun, rest.error)
  }

  /** One step of `RunStages` when stage `i` succeeds. */
  lemma RunStagesAdvance(i: nat, c: Client, env: Environment)
    requires i < |Stages| && Ready(Stages[i], c, env)
    requires RunStage(Stages[i], c, env).Advanced?
    ensures var r := RunStage(Stages[i], c, env);
            && (i + 1 < |Stages| ==> Ready(Stages[i + 1], r.client, env))
            && var rest := RunStages(i + 1, r.client, env);
               RunStages(i, c, env) == ConnectOutcome(rest.client, r.effects + rest.effects, 1 + rest.stagesRun, rest.error)
  {
    StageEnablesNext(i, c, env);
  }

  /** One step of `RunStages` when stage `i` fails. */
  lemma RunStagesStop(i: nat, c: Client, env: Environment)
    requires i < |Stages| && Ready(Stages[i], c, env)
    requires RunStage(Stages[i], c, env).Stopped?
    ensures var r := RunStage(Stages[i], c, env);
            RunStages(i, c, env) == ConnectOutcome(c, r.effects, 1, Some(r.error))
  {
  }

  /** `connect`: announce `connecting`, then run the stages in order. The
      status is not changed again here, neither on success nor on failure. */
  function Connect(c: Client, env: Environment): ConnectOutcome {
    var outcome := RunStages(0, c, env);
    outcome.(effects := UpdateStatus(c, Connecting) + outcome.effects)
  }

  /** An outcome preceded by some effects and some stages already run. */
  function After(effects: seq<Effect>, stagesRun: nat, o: ConnectOutcome): ConnectOutcome {
    ConnectOutcome(o.client, effects + o.effects, stagesRun + o.stagesRun, o.error)
  }

  /** `connect` written as the source runs it: one stage after another,
      leaving the loop at the first failure. */
  method ConnectInOrder(c: Client, env: Environment) returns (outcome: ConnectOutcome)
    ensures outcome == Connect(c, env)
  {
    var client := c;
    var effects := UpdateStatus(c, Connecting);
    var i := 0;
    while i < |Stages|
      invariant 0 <= i <= |Stages|
      invariant i < |Stages| ==> Ready(Stages[i], client, env)
      invariant Connect(c, env) == After(effects, i, RunStages(i, client, env))
      decreases |Stages| - i
    {
      var r := RunStage(Stages[i], client, env);
      if r.Stopped? {
        RunStagesStop(i, client, env);
        return After(effects, i, ConnectOutcome(client, r.effects, 1, Some(r.error)));
      }
      RunStagesAdvance(i, client, env);
      AfterAdvance(effects, i, r.effects, RunStages(i + 1, r.client, env));
      client := r.client;
      effects := effects + r.effects;
      i := i + 1;
    }
    return After(effects, i, ConnectOutcome(client, [], 0, None));
  }

  lemma AfterAdvance(effects: seq<Effect>, stagesRun: nat, more: seq<Effect>, o: ConnectOutcome)
    ensures After(effects, stagesRun, ConnectOutcome(o.client, more + o.effects, 1 + o.stagesRun, o.error))
            == After(effects + more, stagesRun + 1, o)
  {
    assert effects + (more + o.effects) == (effects + more) + o.effects;
  }

  // --------------------------------------------------------------- handlers

  /** The channel's `onopen`: report `connected`, then enable input
      transcription with one `session.update`. Only a channel that is still
      connecting can open; for any other the event does nothing. */
  function ChannelOpened(c: Client): (s: Step)
    ensures ChannelIsConnecting(c) ==> ChannelIsOpen(s.client)
    ensures !ChannelIsConnecting(c) ==> s == Step(c, [])
    ensures SameButReadyState(s.client, c)
    ensures forall e :: e in s.effects ==> e == StatusChanged(Connected) || e == Sent(SessionUpdate(TranscriptionModel))
  {
    if !ChannelIsConnecting(c) then Step(c, [])
    else
      var openedClient := c.(channel := Some(c.channel.value.(readyState := ReadyOpen)));
      Step(openedClient, UpdateStatus(c, Connected) + [Sent(SessionUpdate(TranscriptionModel))])
  }

  /** The channel's `onclose`: report `disconnected`. The handler stays bound
      after `disconnect`, so it also reports the close `disconnect` causes. */
  function ChannelClosed(c: Client): (s: Step)
    ensures StatusEvents(s.effects) == (if c.callbacks.onStatusChange then [Disconnected] else [])
    ensures forall e :: e in s.effects ==> e == StatusChanged(Disconnected)
    ensures !ChannelIsOpen(s.client)
    ensures SameButReadyState(s.client, c)
  {
    var closedClient := if c.channel.Some? then c.(channel := Some(c.channel.value.(readyState := ReadyClosed))) else c;
    Step(closedClient, UpdateStatus(c, Disconnected))
  }

  /** The peer connection's `ontrack`: a new playback element at full volume.
      Playback refused by autoplay rules is ignored. */
  function TrackArrived(c: Client): (s: Step)
    ensures c.peer.Some? ==> s.client.remoteAudio == Some(AudioSink(FullVolume))
    ensures c.peer.None? ==> s.client == c
    ensures SameButAudio(s.client, c)
    ensures s.effects == []
  {
    if c.peer.None? then Step(c, [])
    else Step(c.(remoteAudio := Some(AudioSink(FullVolume))), [])
  }

  // ------------------------------------------------------------- disconnect

  /** The release effects of `disconnect`, in the order it performs them. */
  function Releases(c: Client): (effects: seq<Effect>)
    ensures forall e :: e in effects ==> e.Released?
    ensures forall r :: Released(r) in effects <==> Holds(c, r)
    ensures StatusEvents(effects) == []
  {
    var effects := (if c.channel.Some? then [Released(ChannelHandle)] else [])
                   + (if c.peer.Some? then [Released(PeerHandle)] else [])
                   + (if c.localStream.Some? then [Released(MicrophoneTracks)] else [])
                   + (if c.remoteAudio.Some? then [Released(AudioPlayback)] else []);
    ReleasesMatchHeld(c, effects);
    effects
  }

  lemma ReleasesMatchHeld(c: Client, effects: seq<Effect>)
    requires effects == (if c.channel.Some? then [Released(ChannelHandle)] else [])
                        + (if c.peer.Some? then [Released(PeerHandle)] else [])
                        + (if c.localStream.Some? then [Released(MicrophoneTracks)] else [])
                        + (if c.remoteAudio.Some? then [Released(AudioPlayback)] else [])
    ensures forall r :: Released(r) in effects <==> Holds(c, r)
    ensures StatusEvents(effects) == []
  {
    forall r ensures Released(r) in effects <==> Holds(c, r) {
      match r
      case ChannelHandle =>
      case PeerHandle =>
      case MicrophoneTracks =>
      case AudioPlayback =>
    }
    NoStatusEvents(effects);
  }

  /** `disconnect`: close the channel, close the peer connection, stop the
      microphone tracks, pause playback, each only if held and in that order,
      then report `disconnected`. */
  function Disconnect(c: Client): (s: Step)
    ensures s.client.channel.None? && s.client.peer.None? && s.client.localStream.None? && s.client.remoteAudio.None?
    ensures s.client.session == c.session && s.client.callbacks == c.callbacks
    ensures forall r :: Released(r) in s.effects <==> Holds(c, r)
    ensures StatusEvents(s.effects) == (if c.callbacks.onStatusChange then [Disconnected] else [])
  {
    var effects := Releases(c) + UpdateStatus(c, Disconnected);
    StatusEventsAppend(Releases(c), UpdateStatus(c, Disconnected));
    Step(c.(channel := None, peer := None, localStream := None, remoteAudio := None), effects)
  }
}

module LifecycleProperties {
  import opened Wrappers
  import opened Protocol
  import opened ErrorTranslator
  import opened ClientState
  import opened Lifecycle

  /** Reference definition of where `connect` stops: the first stage from
      `i` on that fails in this environment, or past the end if none does. */
  function FirstFailure(i: nat, env: Environment): (f: nat)
    requires i <= |Stages|
    ensures i <= f <= |Stages|
    ensures f < |Stages| ==> StageFails(Stages[f], env)
    ensures forall j :: i <= j < f ==> !StageFails(Stages[j], env)
    decreases |Stages| - i
  {
    if i == |Stages| then i
    else if StageFails(Stages[i], env) then i
    else FirstFailure(i + 1, env)
  }

  /** Run from `i`, `connect` reports an error exactly when some later stage
      fails, and the error names the first such stage. */
  lemma {:induction false} RunStagesErrorAt(i: nat, c: Client, env: Environment)
    requires i <= |Stages|
    requires i < |Stages| ==> Ready(Stages[i], c, env)
    ensures var o := RunStages(i, c, env);
            var f := FirstFailure(i, env);
            && (o.error.Some? <==> f < |Stages|)
            && (f < |Stages| ==> o.error.value.stage == Stages[f])
    decreases |Stages| - i
  {
    if i < |Stages| {
      var r := RunStage(Stages[i], c, env);
      if r.Stopped? {
        RunStagesStop(i, c, env);
      } else {
        RunStagesAdvance(i, c, env);
        RunStagesErrorAt(i + 1, r.client, env);
      }
    }
  }

  /** The stages run from `i` are exactly those up to and including the
      first failing one, or all the remaining ones when none fails. */
  lemma {:induction false} RunStagesShape(i: nat, c: Client, env: Environment)
    requires i <= |Stages|
    requires i < |Stages| ==> Ready(Stages[i], c, env)
    ensures var f := FirstFailure(i, env);
            RunStages(i, c, env).stagesRun == (if f < |Stages| then f + 1 - i else |Stages| - i)
    decreases |Stages| - i
  {
    if i < |Stages| {
      var r := RunStage(Stages[i], c, env);
      if r.Stopped? {
        RunStagesStop(i, c, env);
      } else {
        RunStagesAdvance(i, c, env);
        RunStagesShape(i + 1, r.client, env);
      }
    }
  }

  /** The stages themselves produce no effect but HTTP requests. */
  lemma {:induction false} RunStagesOnlyPosts(i: nat, c: Client, env: Environment)
    requires i <= |Stages|
    requires i < |Stages| ==> Ready(Stages[i], c, env)
    ensures forall e :: e in RunStages(i, c, env).effects ==> e.Posted?
    decreases |Stages| - i
  {
    if i < |Stages| {
      var r := RunStage(Stages[i], c, env);
      StageKeeps(Stages[i], c, env);
      if r.Stopped? {
        RunStagesStop(i, c, env);
      } else {
        RunStagesAdvance(i, c, env);
        RunStagesOnlyPosts(i + 1, r.client, env);
      }
    }
  }

  /** `connect` runs its stages in order and stops at the first that fails:
      it ran exactly the stages up to and including that one, or all of them,
      and it reports an error exactly when some stage fails, naming it. */
  lemma ConnectStopsAtFirstFailure(c: Client, env: Environment)
    ensures var o := Connect(c, env);
            var f := FirstFailure(0, env);
            && (o.error.Some? <==> f < |Stages|)
            && (f < |Stages| ==> o.stagesRun == f + 1 && o.error.value.stage == Stages[f])
            && (f == |Stages| ==> o.stagesRun == |Stages|)
  {
    RunStagesShape(0, c, env);
    RunStagesErrorAt(0, c, env);
  }

  /** The first status event of `connect` is `connecting`, it is the only
      one — `connect` never reports `connected`, and does not return to
      `disconnected` when it fails — and every other effect is an HTTP
      request. */
  lemma ConnectAnnouncesConnecting(c: Client, env: Environment)
    ensures var o := Connect(c, env);
            && StatusEvents(o.effects) == (if c.callbacks.onStatusChange then [Connecting] else [])
            && (c.callbacks.onStatusChange ==> o.effects[0] == StatusChanged(Connecting))
            && forall k :: (if c.callbacks.onStatusChange then 1 else 0) <= k < |o.effects| ==> o.effects[k].Posted?
  {
    var o := RunStages(0, c, env);
    RunStagesOnlyPosts(0, c, env);
    NoStatusEvents(o.effects);
    StatusEventsAppend(UpdateStatus(c, Connecting), o.effects);
    var all := UpdateStatus(c, Connecting) + o.effects;
    var skip := if c.callbacks.onStatusChange then 1 else 0;
    forall k | skip <= k < |all| ensures all[k].Posted? {
      assert all[k] == o.effects[k - skip];
      assert o.effects[k - skip] in o.effects;
    }
  }

  /** A failed session-creation response throws before any peer
      connection, channel or stream is created: the client is exactly as it
      was, one request went out, and the error is the translated response. */
  lemma SessionFailureChangesNothing(c: Client, env: Environment)
    requires !env.sessionReply.Ok?
    ensures var o := Connect(c, env);
            && o.client == c
            && o.stagesRun == 1
            && o.effects == UpdateStatus(c, Connecting) + [Posted(SessionRequestOf(c))]
            && (env.sessionReply.Rejected? ==> o.error == Some(StageThrew(CreateSession)))
            && (env.sessionReply.NotOk? ==>
                  o.error == Some(Refused(CreateSession, ParseError(env.sessionReply.response, "Session creation failed"))))
  {
    RunStagesStop(0, c, env);
  }

  /** From a fresh client, a failed session leaves no handle behind. */
  lemma FreshSessionFailureHoldsNothing(options: Options, env: Environment)
    requires !env.sessionReply.Ok?
    ensures var o := Connect(NewClient(options), env);
            o.client.peer.None? && o.client.channel.None? && o.client.localStream.None? && o.client.remoteAudio.None?
  {
    SessionFailureChangesNothing(NewClient(options), env);
  }

  /** The client once the first seven stages have succeeded: the session is
      stored, the peer connection uses its ICE servers and sends the
      microphone, the `messages` channel is opening, and the local
      description is the gathered one. */
  function Prepared(c: Client, env: Environment): Client
    requires env.sessionReply.Ok?
  {
    c.(session := Some(env.sessionReply.body),
       peer := Some(PeerConnection(IceServersOf(env.sessionReply.body), true, Some(env.gatheredSdp), true, None)),
       channel := Some(DataChannel(ChannelName, true, ReadyConnecting)),
       localStream := Some(MicrophoneConstraints))
  }

  predicate PreparationSucceeds(env: Environment) {
    && env.sessionReply.Ok?
    && CreatePeer !in env.throwing && OpenChannel !in env.throwing && CaptureMicrophone !in env.throwing
    && CreateOffer !in env.throwing && SetLocalDescription !in env.throwing
  }

  /** Two outcomes that end alike: same client, same effects, same error. */
  predicate SameEnd(a: ConnectOutcome, b: ConnectOutcome) {
    a.client == b.client && a.effects == b.effects && a.error == b.error
  }

  /** A stage that succeeds without any effect hands over to the next one. */
  lemma QuietAdvance(i: nat, c: Client, env: Environment, next: Client)
    requires i + 1 < |Stages| && Ready(Stages[i], c, env)
    requires RunStage(Stages[i], c, env) == Advanced(next, [])
    ensures Ready(Stages[i + 1], next, env)
    ensures SameEnd(RunStages(i, c, env), RunStages(i + 1, next, env))
  {
    RunStagesAdvance(i, c, env);
    assert [] + RunStages(i + 1, next, env).effects == RunStages(i + 1, next, env).effects;
  }

  /** The client once the peer connection, the channel and the microphone
      exist, before any offer. */
  function Captured(c: Client, env: Environment): Client
    requires env.sessionReply.Ok?
  {
    c.(peer := Some(PeerConnection(IceServersOf(env.sessionReply.body), true, None, false, None)),
       channel := Some(DataChannel(ChannelName, true, ReadyConnecting)),
       localStream := Some(MicrophoneConstraints))
  }

  /** From a stored session, stages 1 to 3 succeed without effects and end in
      `Captured`. */
  lemma CaptureFromSession(c: Client, env: Environment)
    requires PreparationSucceeds(env) && c.session == Some(env.sessionReply.body)
    ensures Ready(Stages[4], Captured(c, env), env)
    ensures SameEnd(RunStages(1, c, env), RunStages(4, Captured(c, env), env))
  {
    var p := PeerConnection(IceServersOf(env.sessionReply.body), false, None, false, None);
    var c2 := c.(peer := Some(p));
    var c3 := c2.(channel := Some(DataChannel(ChannelName, true, ReadyConnecting)));
    QuietAdvance(1, c, env, c2);
    QuietAdvance(2, c2, env, c3);
    QuietAdvance(3, c3, env, Captured(c, env));
  }

  /** From `Captured`, stages 4 to 6 succeed without effects and end in
      `Prepared`. */
  lemma PrepareFromCapture(c: Client, env: Environment)
    requires PreparationSucceeds(env) && c.session == Some(env.sessionReply.body)
    ensures Ready(SendOffer, Prepared(c, env), env)
    ensures SameEnd(RunStages(4, Captured(c, env), env), RunStages(7, Prepared(c, env), env))
  {
    var c4 := Captured(c, env);
    var c6 := c4.(peer := Some(c4.peer.value.(localDescription := Some(env.offerSdp))));
    QuietAdvance(4, c4, env, c4);
    QuietAdvance(5, c4, env, c6);
    QuietAdvance(6, c6, env, Prepared(c, env));
  }

  /** When the first seven stages succeed, `connect` has sent the session
      request, reached `Prepared`, and continues with the SDP exchange. */
  lemma PreparationReaches(c: Client, env: Environment)
    requires PreparationSucceeds(env)
    ensures Ready(SendOffer, Prepared(c, env), env)
    ensures var o := RunStages(0, c, env);
            var rest := RunStages(7, Prepared(c, env), env);
            && o.client == rest.client
            && o.effects == [Posted(SessionRequestOf(c))] + rest.effects
            && o.error == rest.error
  {
    var c1 := c.(session := Some(env.sessionReply.body));
    assert RunStage(Stages[0], c, env) == Advanced(c1, [Posted(SessionRequestOf(c))]);
    RunStagesAdvance(0, c, env);
    CaptureFromSession(c1, env);
    PrepareFromCapture(c1, env);
    assert Prepared(c1, env) == Prepared(c, env);
  }

  /** Once the peer connection exists it uses the session's ICE servers, or
      the public STUN server when the session names none, however the SDP
      exchange that follows turns out. */
  lemma PeerUsesSessionIceServers(c: Client, env: Environment)
    requires PreparationSucceeds(env)
    ensures var o := Connect(c, env);
            var given := env.sessionReply.body.iceServers;
            && o.client.peer.Some?
            && (given.Some? ==> o.client.peer.value.iceServers == given.value)
            && (given.None? ==> o.client.peer.value.iceServers == [IceServer("stun:stun.cloudflare.com:3478")])
  {
    PreparationReaches(c, env);
    var c7 := Prepared(c, env);
    var r7 := RunStage(Stages[7], c7, env);
    if r7.Stopped? {
      RunStagesStop(7, c7, env);
    } else {
      RunStagesAdvance(7, c7, env);
      var r8 := RunStage(Stages[8], r7.client, env);
      if r8.Stopped? {
        RunStagesStop(8, r7.client, env);
      } else {
        RunStagesAdvance(8, r7.client, env);
      }
    }
  }

  /** A successful SDP exchange posts the local description once and stores
      the server's answer as the remote description. */
  lemma SdpExchangeSucceeds(p: Client, env: Environment)
    requires Ready(SendOffer, p, env) && env.sdpReply.Ok? && SetRemoteDescription !in env.throwing
    ensures var o := RunStages(7, p, env);
            && o.error.None?
            && o.client == p.(peer := Some(p.peer.value.(remoteDescription := Some(env.sdpReply.body))))
            && o.effects == [Posted(SdpRequestOf(p, p.peer.value.localDescription.value))]
  {
    RunStagesAdvance(7, p, env);
    RunStagesAdvance(8, p, env);
  }

  /** When every stage succeeds, `connect` ends with the session stored, a
      peer connection on the session's ICE servers (or the default STUN
      server) that sends the microphone and holds the gathered offer and the
      server's answer, the `messages` channel still opening, and the
      microphone stream captured with the requested constraints. It sent the
      session request and then the gathered offer, and nothing else. */
  lemma ConnectSucceeds(c: Client, env: Environment)
    requires PreparationSucceeds(env) && env.sdpReply.Ok? && SetRemoteDescription !in env.throwing
    ensures var o := Connect(c, env);
            && o.error.None?
            && o.client == Prepared(c, env).(peer := Some(PeerConnection(IceServersOf(env.sessionReply.body), true,
                                                       Some(env.gatheredSdp), true, Some(env.sdpReply.body))))
            && o.effects == UpdateStatus(c, Connecting)
                            + [Posted(SessionRequestOf(c)), Posted(SdpRequestOf(c, env.gatheredSdp))]
  {
    var p := Prepared(c, env);
    PreparationReaches(c, env);
    SdpExchangeSucceeds(p, env);
    assert SdpRequestOf(p, env.gatheredSdp) == SdpRequestOf(c, env.gatheredSdp);
    assert [Posted(SessionRequestOf(c))] + [Posted(SdpRequestOf(c, env.gatheredSdp))]
           == [Posted(SessionRequestOf(c)), Posted(SdpRequestOf(c, env.gatheredSdp))];
  }

  /** A refusal at the SDP exchange throws the translated answer under the
      "Connection failed" fallback, after both requests went out, and leaves
      the prepared handles in place for `disconnect` to release. */
  lemma SdpRefusalTranslated(c: Client, env: Environment)
    requires PreparationSucceeds(env) && env.sdpReply.NotOk?
    ensures var o := Connect(c, env);
            && o.error == Some(Refused(SendOffer, ParseError(env.sdpReply.response, "Connection failed")))
            && o.client == Prepared(c, env)
            && o.effects == UpdateStatus(c, Connecting)
                            + [Posted(SessionRequestOf(c)), Posted(SdpRequestOf(c, env.gatheredSdp))]
  {
    PreparationReaches(c, env);
    RunStagesStop(7, Prepared(c, env), env);
  }

  /** `connect` keeps the client valid, whichever stage it stops at. */
  lemma {:induction false} RunStagesKeepsValid(i: nat, c: Client, env: Environment)
    requires i <= |Stages|
    requires i < |Stages| ==> Ready(Stages[i], c, env)
    requires Valid(c)
    ensures Valid(RunStages(i, c, env).client)
    decreases |Stages| - i
  {
    if i < |Stages| {
      var r := RunStage(Stages[i], c, env);
      StageKeeps(Stages[i], c, env);
      if r.Stopped? {
        RunStagesStop(i, c, env);
      } else {
        RunStagesAdvance(i, c, env);
        RunStagesKeepsValid(i + 1, r.client, env);
      }
    }
  }

  lemma ConnectKeepsValid(c: Client, env: Environment)
    requires Valid(c)
    ensures Valid(Connect(c, env).client)
  {
    RunStagesKeepsValid(0, c, env);
  }

  // ------------------------------------------------------------- disconnect

  /** `disconnect` twice leaves the same handles as once, and the second call
      releases nothing and only reports `disconnected` again. */
  lemma DisconnectIdempotent(c: Client)
    ensures var once := Disconnect(c);
            var twice := Disconnect(once.client);
            && twice.client == once.client
            && twice.effects == UpdateStatus(c, Disconnected)
  {
  }

  /** `disconnect` on a client that holds nothing — never connected — is
      safe: it changes nothing and only reports `disconnected`. */
  lemma DisconnectWhenIdle(c: Client)
    requires c.peer.None? && c.channel.None? && c.localStream.None? && c.remoteAudio.None?
    ensures Disconnect(c) == Step(c, UpdateStatus(c, Disconnected))
  {
  }

  /** The status report comes after every release. */
  lemma DisconnectReportsLast(c: Client)
    ensures var e := Disconnect(c).effects;
            c.callbacks.onStatusChange ==>
              (|e| > 0 && e[|e| - 1] == StatusChanged(Disconnected) && forall k :: 0 <= k < |e| - 1 ==> e[k].Released?)
  {
    var released := Releases(c);
    var e := Disconnect(c).effects;
    if c.callbacks.onStatusChange {
      assert e == released + [StatusChanged(Disconnected)];
      forall k | 0 <= k < |e| - 1
        ensures e[k].Released?
      {
        assert e[k] == released[k];
        assert released[k] in released;
      }
    }
  }

  /** `disconnect` closes the channel but leaves its close handler bound: if
      the channel's close event is still delivered afterwards, a status
      listener hears `disconnected` a second time. */
  lemma DisconnectThenCloseReportsTwice(c: Client)
    requires c.callbacks.onStatusChange
    ensures var first := Disconnect(c);
            var second := ChannelClosed(first.client);
            StatusEvents(first.effects + second.effects) == [Disconnected, Disconnected]
  {
    var first := Disconnect(c);
    var second := ChannelClosed(first.client);
    StatusEventsAppend(first.effects, second.effects);
  }


  lemma DisconnectKeepsValid(c: Client)
    ensures Valid(Disconnect(c).client)
  {
  }
}

=== FILE: localfunctions.dfy ===
/** The local function router: the three device-volume functions the client
    answers itself, without involving the application. */
module LocalFunctions {
  import opened Wrappers
  import opened Numerals
  import opened JsValues
  import opened ClientState

  const SetVolumeName := "set_device_volume"
  const AdjustVolumeName := "adjust_device_volume"
  const QuietName := "quiet_device"

  /** How far one `adjust_device_volume` moves the volume, in percent. */
  const VolumeStep := 10

  /** The router's answer: not a local function (`null`), handled with the
      playback element's new state and the result object, or an exception. */
  datatype LocalOutcome = NotHandled | Handled(sink: AudioSink, result: Record) | Threw

  /** `Math.max(0, Math.min(100, x))`. */
  function ClampPercent(x: int): (r: int)
    ensures 0 <= r <= 100
    ensures 0 <= x <= 100 ==> r == x
    ensures x < 0 ==> r == 0
    ensures x > 100 ==> r == 100
  {
    if x < 0 then 0 else if x > 100 then 100 else x
  }

  /** `{ success: true, volume: v }`. */
  function VolumeResult(volume: int): (r: Record)
    ensures r.Keys == {"success", "volume"}
    ensures r["success"] == Bool(true) && r["volume"] == Int(volume)
  {
    map["success" := Bool(true), "volume" := Int(volume)]
  }

  predicate IsLocalName(name: string) {
    name == SetVolumeName || name == AdjustVolumeName || name == QuietName
  }

  /** `handleLocalFunction`. Setting the volume reads the level through
      `parseInt(String(volume_level))`; a level that reads as NaN makes the
      assignment to the element's volume throw. Adjusting moves the volume one
      step in the named direction and leaves it alone for any other truthy
      action. Quieting sets it to zero. Without a playback element, without
      the argument, or for any other name, the call is not handled. */
  function HandleLocalFunction(remoteAudio: Option<AudioSink>, name: string, args: Record): (o: LocalOutcome)
    ensures remoteAudio.None? || !IsLocalName(name) ==> o == NotHandled
    ensures o.Handled? ==> o.result == VolumeResult(o.sink.volume)
    ensures o.Threw? ==> name == SetVolumeName
    ensures o.Handled? && remoteAudio.Some? && 0 <= remoteAudio.value.volume <= 100 ==> 0 <= o.sink.volume <= 100
  {
    if remoteAudio.None? then NotHandled
    else if name == SetVolumeName then
      if "volume_level" !in args then NotHandled
      else
        match ParseInt(ToJsString(args["volume_level"]))
        case None => Threw
        case Some(level) =>
          var clamped := ClampPercent(level);
          Handled(AudioSink(clamped), VolumeResult(clamped))
    else if name == AdjustVolumeName then
      if "action" !in args || !Truthy(args["action"]) then NotHandled
      else
        var current := remoteAudio.value.volume;
        var next :=
          if args["action"] == Str("increase") then (if current + VolumeStep < 100 then current + VolumeStep else 100)
          else if args["action"] == Str("decrease") then (if current - VolumeStep > 0 then current - VolumeStep else 0)
          else current;
        Handled(AudioSink(next), VolumeResult(next))
    else if name == QuietName then Handled(AudioSink(0), VolumeResult(0))
    else NotHandled
  }

  /** An integer `volume_level` is clamped to [0, 100], becomes the playback
      volume, and is returned. */
  lemma SetVolumeClamps(sink: AudioSink, args: Record, level: int)
    requires "volume_level" in args && args["volume_level"] == Int(level)
    ensures HandleLocalFunction(Some(sink), SetVolumeName, args)
            == Handled(AudioSink(ClampPercent(level)), VolumeResult(ClampPercent(level)))
  {
    ParseIntOfDecimal(level);
  }

  /** A string `volume_level` goes through `parseInt`: leading blanks and
      trailing junk are ignored. */
  lemma SetVolumeFromText(sink: AudioSink)
    ensures HandleLocalFunction(Some(sink), SetVolumeName, map["volume_level" := Str(" 42%")])
            == Handled(AudioSink(42), VolumeResult(42))
  {
    ParseIntOfPaddedPercent();
    var args := map["volume_level" := Str(" 42%")];
    assert ToJsString(args["volume_level"]) == " 42%";
  }

  /** A level that reads as NaN makes the handler throw: `null`, a boolean,
      an object, and any text that, after its blanks and one optional sign,
      does not start with a decimal digit. */
  lemma SetVolumeNaNThrows(sink: AudioSink, args: Record)
    requires "volume_level" in args
    requires || args["volume_level"] in {Null, Bool(true), Bool(false), Object}
             || (args["volume_level"].Str?
                 && var u := Unsigned(TrimStart(args["volume_level"].s)); |u| == 0 || !IsDigitIn(u[0], 10))
    ensures HandleLocalFunction(Some(sink), SetVolumeName, args) == Threw
  {
    var level := args["volume_level"];
    if level.Str? {
      ParseIntNoDigits(level.s);
    } else {
      ParseIntNaN(ToJsString(level));
    }
  }

  /** `quiet_device` silences the playback element and reports volume 0. */
  lemma QuietSilences(sink: AudioSink, args: Record)
    ensures HandleLocalFunction(Some(sink), QuietName, args) == Handled(AudioSink(0), VolumeResult(0))
  {
  }

  /** For a volume in range, `adjust_device_volume` is the clamp of one step
      up or down, any other truthy action keeps the volume, and the reported
      volume is the new one. */
  lemma AdjustMovesOneStep(sink: AudioSink, args: Record)
    requires 0 <= sink.volume <= 100
    requires "action" in args && Truthy(args["action"])
    ensures var o := HandleLocalFunction(Some(sink), AdjustVolumeName, args);
            && o.Handled?
            && o.result == VolumeResult(o.sink.volume)
            && (args["action"] == Str("increase") ==> o.sink.volume == ClampPercent(sink.volume + VolumeStep))
            && (args["action"] == Str("decrease") ==> o.sink.volume == ClampPercent(sink.volume - VolumeStep))
            && (args["action"] != Str("increase") && args["action"] != Str("decrease") ==> o.sink == sink)
  {
  }

  /** Each local function needs its argument: without it nothing is handled
      and the volume stays where it was. */
  lemma MissingArgumentNotHandled(sink: AudioSink, args: Record)
    ensures "volume_level" !in args ==> HandleLocalFunction(Some(sink), SetVolumeName, args) == NotHandled
    ensures ("action" !in args || !Truthy(args["action"])) ==>
              HandleLocalFunction(Some(sink), AdjustVolumeName, args) == NotHandled
  {
  }
}

=== FILE: numerals.dfy ===
/** Digit strings: their values in a radix up to 36, and the plain decimal
    rendering of integers that JavaScript's `String(n)` produces for integers
    of magnitude below 10^21. */
module Numerals {

  /** The value of `ch` as a digit, as JavaScript's parseInt reads it:
      0-9, then a-z and A-Z for 10 to 35; -1 when `ch` is no digit at all. */
  function DigitOf(ch: char): (d: int)
    ensures -1 <= d < 36
  {
    if '0' <= ch <= '9' then ch as int - '0' as int
    else if 'a' <= ch <= 'z' then ch as int - 'a' as int + 10
    else if 'A' <= ch <= 'Z' then ch as int - 'A' as int + 10
    else -1
  }

  predicate IsDigitIn(ch: char, radix: nat) {
    0 <= DigitOf(ch) < radix
  }

  predicate AllDigits(s: string, radix: nat) {
    forall i :: 0 <= i < |s| ==> IsDigitIn(s[i], radix)
  }

  /** The value of a digit string, most significant digit first. */
  function DigitsValue(s: string, radix: nat): nat
    requires AllDigits(s, radix)
    decreases |s|
  {
    if |s| == 0 then 0
    else DigitsValue(s[..|s| - 1], radix) * radix + DigitOf(s[|s| - 1])
  }

  /** The longest prefix of `s` made only of digits of `radix`. */
  function DigitPrefix(s: string, radix: nat): (p: string)
    ensures p <= s
    ensures AllDigits(p, radix)
    ensures |p| < |s| ==> !IsDigitIn(s[|p|], radix)
    decreases |s|
  {
    if |s| > 0 && IsDigitIn(s[0], radix) then [s[0]] + DigitPrefix(s[1..], radix) else []
  }

  function DigitChar(d: nat): (ch: char)
    requires d < 10
    ensures IsDigitIn(ch, 10) && DigitOf(ch) == d
  {
    ('0' as int + d) as char
  }

  /** Decimal rendering of `n` without leading zeros. */
  function NatToString(n: nat): (s: string)
    ensures |s| > 0 && AllDigits(s, 10)
    ensures s[0] == '0' <==> n == 0
    ensures n == 0 ==> |s| == 1
    decreases n
  {
    if n < 10 then [DigitChar(n)] else NatToString(n / 10) + [DigitChar(n % 10)]
  }

  /** Decimal rendering of an integer, with a leading '-' when negative. */
  function IntToString(n: int): (s: string)
    ensures |s| > 0
    ensures n < 0 <==> s[0] == '-'
  {
    if n < 0 then "-" + NatToString(-n) else NatToString(n)
  }

  /** Reading a rendered natural number back gives the number. */
  lemma {:induction false} NatToStringValue(n: nat)
    ensures DigitsValue(NatToString(n), 10) == n
    decreases n
  {
    var s := NatToString(n);
    if n < 10 {
      assert s[..|s| - 1] == [];
    } else {
      assert s[..|s| - 1] == NatToString(n / 10);
      NatToStringValue(n / 10);
    }
  }

  /** A string made only of digits is its own longest digit prefix. */
  lemma DigitPrefixOfDigits(s: string, radix: nat)
    requires AllDigits(s, radix)
    ensures DigitPrefix(s, radix) == s
  {
  }

  /** The digit prefix stops exactly where the digits stop. */
  lemma {:induction false} DigitPrefixSplit(digits: string, rest: string, radix: nat)
    requires AllDigits(digits, radix)
    requires |rest| == 0 || !IsDigitIn(rest[0], radix)
    ensures DigitPrefix(digits + rest, radix) == digits
    decreases |digits|
  {
    if |digits| > 0 {
      assert (digits + rest)[1..] == digits[1..] + rest;
      DigitPrefixSplit(digits[1..], rest, radix);
    } else {
      assert digits + rest == rest;
    }
  }
}

=== FILE: protocol.dfy ===
/** The vocabulary the client shares with the realtime service and with its
    caller: connection status, inbound data-channel messages (already
    decoded from JSON), outbound messages, HTTP requests and replies, and the
    observable effects every operation of the client produces. */
module Protocol {
  import opened Wrappers
  import opened JsValues

  datatype ConnectionStatus = Disconnected | Connecting | Connected

  // ---------------------------------------------------------------- inbound

  const UserTranscriptType := "conversation.item.input_audio_transcription.completed"
  const AssistantDeltaType := "response.audio_transcript.delta"
  const AssistantDoneType := "response.audio_transcript.done"
  const OutputItemDoneType := "response.output_item.done"
  const FunctionCallItemType := "function_call"

  /** The `arguments` string of a function-call item, after `JSON.parse`:
      either an object or text that does not parse. */
  datatype ArgumentsText = ArgumentsObject(fields: Record) | ArgumentsMalformed

  /** The `item` of a `response.output_item.done` message. */
  datatype Item = Item(kind: string, callId: string, name: string, arguments: Option<ArgumentsText>)

  /** One decoded inbound message; `kind` is its `type` discriminator. */
  datatype RealtimeMessage = RealtimeMessage(
    kind: string,
    transcript: Option<string>,
    delta: Option<string>,
    item: Option<Item>)

  /** One data-channel frame: a message, or text that is not JSON. */
  datatype Inbound = Frame(message: RealtimeMessage) | Garbled

  // --------------------------------------------------------------- outbound

  const TranscriptionModel := "gpt-4o-mini-transcribe"

  /** Data-channel messages the client sends. `ItemCreate` is the
      `conversation.item.create` whose item has type `function_call_output`;
      its `output` is the result object that is serialised on the wire. */
  datatype Outbound =
    | SessionUpdate(transcriptionModel: string)
    | ItemCreate(callId: string, output: Record)
    | ResponseCreate

  // ------------------------------------------------------------------- HTTP

  datatype Credentials = Credentials(workspaceKey: string, clientId: string, clientSecret: string)

  datatype RequestBody = SessionRequest(modalities: seq<string>) | SdpOffer(sdp: string)

  /** A POST issued by the client, with its content type and the three
      authentication headers. */
  datatype HttpRequest = HttpRequest(url: string, contentType: string, credentials: Credentials, body: RequestBody)

  /** The body of a failed response, as `response.json()` and the two field
      reads see it. `Unparseable` is text that is not JSON, or JSON `null`,
      whose field read throws into the same catch. Every other JSON value is
      an `ErrorJson` carrying its `message` and `hint` strings when present;
      a JSON string, number, boolean or array has neither, so it is
      `ErrorJson(None, None)` and keeps the default message. */
  datatype ErrorBody = Unparseable | ErrorJson(message: Option<string>, hint: Option<string>)

  datatype ErrorResponse = ErrorResponse(status: nat, statusText: string, body: ErrorBody)

  /** What an awaited `fetch` delivers: a rejection (network failure or an
      unreadable success body), a response whose `ok` is false, or the
      decoded body of a successful response. */
  datatype Reply<T> = Rejected | NotOk(response: ErrorResponse) | Ok(body: T)

  datatype IceServer = IceServer(urls: string)

  /** The JSON body of a successful session-creation response. */
  datatype SessionResponse = SessionResponse(id: string, iceServers: Option<seq<IceServer>>)

  // ---------------------------------------------------------------- effects

  /** The resources `disconnect` releases, in the order it releases them. */
  datatype Resource = ChannelHandle | PeerHandle | MicrophoneTracks | AudioPlayback

  /** One observable effect: a callback invocation, a data-channel send, an
      HTTP request, or the release of a resource. */
  datatype Effect =
    | StatusChanged(status: ConnectionStatus)
    | TranscriptFired(text: string)
    | AssistantMessageFired(text: string, done: bool)
    | FunctionCallFired(name: string, args: Record, callId: string)
    | Sent(message: Outbound)
    | Posted(request: HttpRequest)
    | Released(resource: Resource)

  /** The status events in an effect log, in order. */
  function StatusEvents(effects: seq<Effect>): (r: seq<ConnectionStatus>)
    ensures |r| <= |effects|
    ensures forall s :: s in r <==> StatusChanged(s) in effects
  {
    if |effects| == 0 then []
    else (if effects[0].StatusChanged? then [effects[0].status] else []) + StatusEvents(effects[1..])
  }

  /** The data-channel messages in an effect log, in order. */
  function Outbox(effects: seq<Effect>): (r: seq<Outbound>)
    ensures |r| <= |effects|
    ensures forall m :: m in r <==> Sent(m) in effects
  {
    if |effects| == 0 then []
    else (if effects[0].Sent? then [effects[0].message] else []) + Outbox(effects[1..])
  }

  lemma {:induction false} StatusEventsAppend(a: seq<Effect>, b: seq<Effect>)
    ensures StatusEvents(a + b) == StatusEvents(a) + StatusEvents(b)
  {
    if |a| > 0 {
      assert (a + b)[1..] == a[1..] + b;
      StatusEventsAppend(a[1..], b);
    } else {
      assert a + b == b;
    }
  }

  lemma {:induction false} OutboxAppend(a: seq<Effect>, b: seq<Effect>)
    ensures Outbox(a + b) == Outbox(a) + Outbox(b)
  {
    if |a| > 0 {
      assert (a + b)[1..] == a[1..] + b;
      OutboxAppend(a[1..], b);
    } else {
      assert a + b == b;
    }
  }

  lemma {:induction false} NoStatusEvents(effects: seq<Effect>)
    requires forall e :: e in effects ==> !e.StatusChanged?
    ensures StatusEvents(effects) == []
  {
    if |effects| > 0 {
      assert effects[0] in effects;
      NoStatusEvents(effects[1..]);
    }
  }
}

=== FILE: wrappers.dfy ===
/** The optional value used for every nullable handle and optional field of the model. */
module Wrappers {

  /** `None` plays the part of JavaScript's `null` / `undefined`. */
  datatype Option<+T> = None | Some(value: T) {

    /** The value, or `default` when absent (JavaScript's `??`). */
    function GetOr(default: T): T {
      match this
      case Some(v) => v
      case None => default
    }
  }
}
